=== FILE: README.md ===
# project-110 cache layer, modelled in Dafny

project-110 is a Spring Boot service for categories, products and persons. Each kind of entity is cached.
This project models the service's caching layer as pure functions over an explicit world.

**The port and its adapters.** `CachePort` is the port with `get`, `getList`, `put`, `evict` and `clear`. It has two adapters.
- The Redis adapter stores each entry under the physical key `manual-cache::<cache>::<key>` and clears a cache by a `manual-cache::<cache>::*` key scan.
- The Spring adapter delegates to the `CacheManager`'s named caches.

Both adapters are fail-open: a failing backend turns a read into a miss and a write into no effect.

**The wrappers.** `CategoryCache`, `ProductCache` and `PersonCache` put one cache namespace behind `getAll`, `putAll`, `evictAll`, `getById`, `put`, `evictById` and `clearAllEntries`. The collection lives under the key `all`; every entity lives under its id.

**The services.** Five services use the caches:
- `CategoryManualService` and `ProductManualService` drive the wrappers by hand. Their reads, `delete` and `clearCache` are the same code over different wrappers, so the model states them once, in `CacheAside`; each service's `getAll`, `getById`, `delete` and `clearCache` is a one-line delegate to it.
- `CategoryService` and `ProductService` declare `@Cacheable`, `@CachePut` and `@CacheEvict`. Their `clearCache` methods are one-line delegates to `DeclaredCaching.ClearAllEntries`.
- `PersonService` talks to the `CacheManager` directly, with no try/catch.

**The world.** Every operation is a function from a `World` (the store plus the cache manager) to a `Step` (the answer plus the next world).
- Every cache call of the adapters, the wrappers, the manual services and `PersonService` takes an `Outcome` (`Ok` or `Fail`), so each failure path is an input rather than an effect. The annotated services are modelled on a healthy backend only.
- The store is a map from id to row, together with the insertion order that `findAll` lists, the next generated id and a log of store calls. The log is what shows whether an answer came from the cache or from the store.

**What is proved.**
- Each adapter operation is stated against the port's contract. Put-then-get, eviction and clear each touch exactly their own entries, and Redis key building is injective on separator-free cache names.
- On a healthy backend with the categories cache configured, the manual category service is equal to the declarative one on every sequence of operations.
- The manual product service simulates the declarative one up to `toResponse`. The declarative service caches entities, the manual one caches responses.
- Every service keeps its cache a mirror of the store on a healthy backend.
- Where a failure or an id supplied by the client breaks that mirror, a lemma shows how.
- `getAllPersons` as written answers an empty list when the `persons` cache is not configured (see Findings).

## Model

| member | source | states |
|---|---|---|
| Values.IdTextInjective | service-api/src/main/java/com/jeanbarcellos/core/cache/CacheRedisAdapter.java:139-141 | two ids whose decimal texts are equal are equal, so id keys never collide |
| Values.KeyTextSeparatesEntryKinds | service-api/src/main/java/com/jeanbarcellos/core/cache/CacheRedisAdapter.java:139-141 | for the wrappers' keys (`all` and entity ids) the key text is equal exactly when the keys are equal |
| RedisAdapter.Get | service-api/src/main/java/com/jeanbarcellos/core/cache/CacheRedisAdapter.java:41-68 | a value comes back exactly when the call succeeds and the physical key holds a value of the requested type; a failure, a missing key or a wrong type is a miss |
| RedisAdapter.GetList | service-api/src/main/java/com/jeanbarcellos/core/cache/CacheRedisAdapter.java:72-98 | a list comes back exactly when the call succeeds and the physical key holds a list, and it is that list |
| RedisAdapter.Put | service-api/src/main/java/com/jeanbarcellos/core/cache/CacheRedisAdapter.java:101-109 | a successful put stores the value under `manual-cache::<cache>::<key>`; a failing one changes nothing |
| RedisAdapter.Evict | service-api/src/main/java/com/jeanbarcellos/core/cache/CacheRedisAdapter.java:112-120 | a successful evict removes exactly the physical key and keeps every other entry's value |
| RedisAdapter.Clear | service-api/src/main/java/com/jeanbarcellos/core/cache/CacheRedisAdapter.java:123-137 | a successful clear removes exactly the keys the cache's pattern matches and keeps the rest |
| RedisAdapter.KeyLayout | service-api/src/main/java/com/jeanbarcellos/core/cache/CacheRedisAdapter.java:139-141 | a physical key is `manual-cache`, the separator `::`, the cache name, `::` again and the key text |
| RedisAdapter.BuildKeyInjective | service-api/src/main/java/com/jeanbarcellos/core/cache/CacheRedisAdapter.java:139-141 | for cache names without `:`, equal physical keys come from the same cache name and the same key text |
| RedisAdapter.IdKeyIsNotAllKey | service-api/src/main/java/com/jeanbarcellos/core/cache/CacheRedisAdapter.java:139-141 | an entity's physical key never coincides with the collection's key |
| RedisAdapter.TextKeyAliasesIdKey | service-api/src/main/java/com/jeanbarcellos/core/cache/CacheRedisAdapter.java:139-141 | the key text `"5"` and the id `5` share one physical key, because keys are rendered with `toString` |
| RedisAdapter.PatternMatchesOwnKeys | service-api/src/main/java/com/jeanbarcellos/core/cache/CacheRedisAdapter.java:143-145 | a cache's pattern matches a physical key exactly when the key belongs to that cache |
| RedisAdapter.PutThenGet | service-api/src/main/java/com/jeanbarcellos/core/cache/CacheRedisAdapter.java:101-109 | after a successful put, a read of the same key answers the value put if it has the requested type, and a miss otherwise |
| RedisAdapter.PutLeavesOtherEntries | service-api/src/main/java/com/jeanbarcellos/core/cache/CacheRedisAdapter.java:101-109 | a put leaves the read of every other cache or key text unchanged |
| RedisAdapter.EvictRemovesOnlyItsKey | service-api/src/main/java/com/jeanbarcellos/core/cache/CacheRedisAdapter.java:112-120 | after an evict the key misses, and every other cache or key text reads as before |
| RedisAdapter.EvictIdempotent | service-api/src/main/java/com/jeanbarcellos/core/cache/CacheRedisAdapter.java:112-120 | evicting an absent key changes nothing, and evicting twice is evicting once |
| RedisAdapter.ClearEmptiesOnlyItsCache | service-api/src/main/java/com/jeanbarcellos/core/cache/CacheRedisAdapter.java:123-137 | after a clear every key of the cache misses, and other caches read as before |
| RedisAdapter.ClearWithoutMatchesIsNoop | service-api/src/main/java/com/jeanbarcellos/core/cache/CacheRedisAdapter.java:129-131 | when no key matches the pattern, clear changes nothing |
| NamedCaches.TypedGet | service-api/src/main/java/com/jeanbarcellos/core/cache/CacheSpringAdapter.java:33 | a typed read is a miss exactly when the key is absent, a hit exactly when the stored value has the type, and the hit is the stored value |
| SpringAdapter.Get | service-api/src/main/java/com/jeanbarcellos/core/cache/CacheSpringAdapter.java:25-38 | a missing named cache or a failure is a miss; otherwise a value comes back exactly when the key holds one of the requested type |
| SpringAdapter.GetList | service-api/src/main/java/com/jeanbarcellos/core/cache/CacheSpringAdapter.java:42-55 | a list comes back exactly when the named cache exists, the call succeeds and the key holds a list |
| SpringAdapter.Put | service-api/src/main/java/com/jeanbarcellos/core/cache/CacheSpringAdapter.java:58-70 | a successful put into an existing named cache sets that one entry; otherwise nothing changes |
| SpringAdapter.Evict | service-api/src/main/java/com/jeanbarcellos/core/cache/CacheSpringAdapter.java:73-85 | a successful evict from an existing named cache removes that one key; otherwise nothing changes |
| SpringAdapter.Clear | service-api/src/main/java/com/jeanbarcellos/core/cache/CacheSpringAdapter.java:88-100 | a successful clear of an existing named cache empties it; otherwise nothing changes |
| SpringAdapter.GetListIsListRead | service-api/src/main/java/com/jeanbarcellos/core/cache/CacheSpringAdapter.java:42-55 | `getList` answers exactly what `get` with the list type answers |
| SpringAdapter.PutThenGet | service-api/src/main/java/com/jeanbarcellos/core/cache/CacheSpringAdapter.java:58-70 | after a successful put, a read of the key answers the value if it has the requested type |
| SpringAdapter.WritesTouchOneEntry | service-api/src/main/java/com/jeanbarcellos/core/cache/CacheSpringAdapter.java:58-85 | put and evict leave the read of every other cache or key unchanged |
| SpringAdapter.EvictIdempotent | service-api/src/main/java/com/jeanbarcellos/core/cache/CacheSpringAdapter.java:73-85 | an evicted key misses, evicting an absent key changes nothing, and evicting twice is evicting once |
| SpringAdapter.ClearEmptiesOnlyItsCache | service-api/src/main/java/com/jeanbarcellos/core/cache/CacheSpringAdapter.java:88-100 | after a clear every key of the cache misses, and other caches read as before |
| EntityCache.GetAll | service-api/src/main/java/com/jeanbarcellos/project110/cache/CategoryCache.java:31-44 | the collection comes back exactly when the cache exists, the read succeeds and `all` holds a list |
| EntityCache.PutAll | service-api/src/main/java/com/jeanbarcellos/project110/cache/CategoryCache.java:46-58 | only the wrapper's own cache changes; a successful write sets `all` to the list, and an absent cache or a failure changes nothing |
| EntityCache.EvictAll | service-api/src/main/java/com/jeanbarcellos/project110/cache/CategoryCache.java:60-72 | only the wrapper's own cache changes, and a successful evict removes exactly `all` |
| EntityCache.GetById | service-api/src/main/java/com/jeanbarcellos/project110/cache/CategoryCache.java:74-87 | an entity comes back exactly when the id's entry holds an item of the wrapper's class, and it is that item |
| EntityCache.Put | service-api/src/main/java/com/jeanbarcellos/project110/cache/CategoryCache.java:89-105 | a null response or a response without an id is ignored; otherwise a successful put stores the item under its id |
| EntityCache.EvictById | service-api/src/main/java/com/jeanbarcellos/project110/cache/CategoryCache.java:107-119 | only the wrapper's own cache changes, and a successful evict removes exactly the id's entry |
| EntityCache.ClearAllEntries | service-api/src/main/java/com/jeanbarcellos/project110/cache/CategoryCache.java:121-133 | only the wrapper's own cache changes, and a successful clear empties it |
| EntityCache.WrapperIsPortFacade | service-api/src/main/java/com/jeanbarcellos/project110/cache/ProductCache.java:31-133 | every wrapper operation is the port operation on the wrapper's cache name with key `all` or the entity's id |
| EntityCache.AllAndIdEntriesIndependent | service-api/src/main/java/com/jeanbarcellos/project110/cache/PersonCache.java:83-159 | evicting `all` keeps every entity read, and evicting an id keeps the collection read and every other id's read |
| EntityCache.PutAllThenGetAll | service-api/src/main/java/com/jeanbarcellos/project110/cache/CategoryCache.java:31-58 | after a successful `putAll(xs)` on an existing cache, `getAll` answers `xs` |
| EntityCache.PutThenGetById | service-api/src/main/java/com/jeanbarcellos/project110/cache/ProductCache.java:74-105 | after a successful `put(x)` of an entity with an id, `getById(x.id)` answers `x` |
| EntityCache.UnavailableCacheDegrades | service-api/src/main/java/com/jeanbarcellos/project110/cache/PersonCache.java:166-173 | when the cache is not configured or the backend fails, every read misses and every write changes nothing |
| EntityCache.ClearAllEntriesMissesEverything | service-api/src/main/java/com/jeanbarcellos/project110/cache/CategoryCache.java:121-133 | after `clearAllEntries`, `getAll` and every `getById` miss |
| EntityCache.CategoryClearKeepsProducts | service-api/src/main/java/com/jeanbarcellos/project110/cache/CategoryCache.java:121-142 | clearing the categories cache leaves every product read unchanged |
| Repository.FindAllOp | service-api/src/main/java/com/jeanbarcellos/project110/service/CategoryManualService.java:52 | `findAll` lists the stored rows in insertion order and logs one call |
| Repository.FindByIdOp | service-api/src/main/java/com/jeanbarcellos/project110/service/CategoryManualService.java:156-159 | `findById` finds a row exactly when the id is stored, and it is that row |
| Repository.ExistsByIdOp | service-api/src/main/java/com/jeanbarcellos/project110/service/PersonService.java:111-113 | `existsById` holds exactly when the id is stored |
| Repository.SaveOp | service-api/src/main/java/com/jeanbarcellos/project110/service/CategoryManualService.java:94-98 | `save` keeps the class and properties, keeps a given id and otherwise assigns the next generated id, and stores the row under it |
| Repository.DeleteByIdOp | service-api/src/main/java/com/jeanbarcellos/project110/service/CategoryManualService.java:140 | `deleteById` removes exactly that id's row, and is a no-op on the rows for an unknown id |
| Repository.OperationsPreserveValid | service-api/src/main/java/com/jeanbarcellos/project110/repository/CategoryRepository.java:7-8 | every store operation keeps the listing duplicate-free and in step with the stored rows |
| Repository.InsertAppendsToListing | service-api/src/main/java/com/jeanbarcellos/project110/service/PersonService.java:77-84 | saving a new entity appends it at the end of `findAll` |
| Mapping.ToResponseList | service-api/src/main/java/com/jeanbarcellos/project110/mapper/CategoryMapper.java:28-32 | the response list has one element per entity, each the response of the entity at the same position |
| Mapping.ToResponseListAppend | service-api/src/main/java/com/jeanbarcellos/project110/mapper/CategoryMapper.java:28-32 | mapping a concatenation is the concatenation of the mapped lists |
| Mapping.CopyProps | service-api/src/main/java/com/jeanbarcellos/project110/service/ProductService.java:80-82 | the copy keeps the target's class and id, takes each named property from the source and keeps every other property of the target |
| Mapping.CopyPropsIdempotent | service-api/src/main/java/com/jeanbarcellos/project110/service/ProductService.java:80-82 | copying the same properties twice is copying them once |
| DeclaredCaching.Named | service-api/src/main/java/com/jeanbarcellos/project110/config/CacheConfig.java:36-46 | a declared cache is the configured namespace, or an empty one that the first write creates |
| DeclaredCaching.Cached | service-api/src/main/java/com/jeanbarcellos/project110/service/CategoryService.java:49-59 | `@Cacheable` hits exactly when the key is in the named cache, and returns its value |
| DeclaredCaching.CachePut | service-api/src/main/java/com/jeanbarcellos/project110/service/CategoryService.java:85-96 | `@CachePut` sets one key of one namespace and leaves every other namespace alone |
| DeclaredCaching.CacheEvict | service-api/src/main/java/com/jeanbarcellos/project110/service/CategoryService.java:125-133 | `@CacheEvict` removes one key of one namespace and leaves every other namespace alone |
| DeclaredCaching.CacheEvictAllEntries | service-api/src/main/java/com/jeanbarcellos/project110/service/CategoryService.java:135-137 | `@CacheEvict(allEntries = true)` empties one namespace and leaves every other namespace alone |
| CacheAside.NotFoundMessageNamesId | service-api/src/main/java/com/jeanbarcellos/project110/service/CategoryManualService.java:29 | the not-found message names the id: for one entity, different ids give different messages |
| CacheAside.GetAll | service-api/src/main/java/com/jeanbarcellos/project110/service/CategoryManualService.java:41-59 | always succeeds and leaves the rows alone; it touches the store exactly when the cache misses; a hit returns the cached list, and a miss lists the store, maps it and caches it (the product service runs the same code) |
| CacheAside.GetById | service-api/src/main/java/com/jeanbarcellos/project110/service/CategoryManualService.java:65-83 | it touches the store exactly when the cache misses; a hit returns the cached response; a miss answers the mapped row and caches it, or the not-found error for an unknown id without touching the cache |
| CategoryManualService.Create | service-api/src/main/java/com/jeanbarcellos/project110/service/CategoryManualService.java:91-104 | saves the mapped request, caches the response under the saved id and evicts `all`; no other entry of the categories cache and no other cache changes |
| CategoryManualService.Update | service-api/src/main/java/com/jeanbarcellos/project110/service/CategoryManualService.java:112-127 | a missing id or an unknown id fails before any effect; otherwise it copies the request onto the row, saves, caches the response under its id and evicts `all`, leaving every other entry as it was |
| CacheAside.Delete | service-api/src/main/java/com/jeanbarcellos/project110/service/CategoryManualService.java:137-144 | always succeeds and deletes the row; on a healthy cache the id's entry and `all` are gone, and every other entry of every cache is kept |
| CacheAside.ClearCache | service-api/src/main/java/com/jeanbarcellos/project110/service/CategoryManualService.java:150-154 | leaves the store alone, touches only its own cache and, on a healthy cache, empties it |
| CategoryService.GetAll | service-api/src/main/java/com/jeanbarcellos/project110/service/CategoryService.java:49-59 | it touches the store exactly when `categories/all` is absent; a hit returns the cached list, and a miss returns and caches the mapped listing, and every other named cache is kept |
| CategoryService.GetById | service-api/src/main/java/com/jeanbarcellos/project110/service/CategoryService.java:67-77 | it touches the store exactly when the id's entry is absent; a miss returns and caches the mapped row, or fails with the not-found message, and every other named cache is kept |
| CategoryService.PutResultEvictAll | service-api/src/main/java/com/jeanbarcellos/project110/service/CategoryService.java:85-87 | `@CachePut(key = "#result.id")` fails on a null key and otherwise caches the result under its id; the late `@CacheEvict` then removes `all`, and every other named cache is kept |
| CategoryService.Create | service-api/src/main/java/com/jeanbarcellos/project110/service/CategoryService.java:85-96 | saves the mapped request; on success the result is cached under its id and `all` is gone, and every other named cache is kept |
| CategoryService.Update | service-api/src/main/java/com/jeanbarcellos/project110/service/CategoryService.java:104-117 | a missing or unknown id fails with nothing cached; otherwise the copied row is saved, its response cached under its id, and `all` evicted, and every other named cache is kept |
| CategoryService.Delete | service-api/src/main/java/com/jeanbarcellos/project110/service/CategoryService.java:125-133 | deletes the row and removes exactly the id's entry and `all` from the categories cache, and every other named cache is kept |
| DeclaredCaching.ClearAllEntries | service-api/src/main/java/com/jeanbarcellos/project110/service/CategoryService.java:135-137 | leaves the store alone, empties the named cache and keeps every other cache (the product service declares the same) |
| CategoryEquivalence.SameCacheAndKeys | service-api/src/main/java/com/jeanbarcellos/project110/service/CategoryService.java:34-37 | both category services use the same cache name, the same collection key and the same not-found message |
| CategoryEquivalence.GetAllAgrees | service-api/src/main/java/com/jeanbarcellos/project110/service/CategoryManualService.java:37-59 | on a healthy configured cache, manual `getAll` answers and changes exactly what `@Cacheable` `getAll` does |
| CategoryEquivalence.GetByIdAgrees | service-api/src/main/java/com/jeanbarcellos/project110/service/CategoryManualService.java:61-83 | on a healthy configured cache, manual `getById` equals the `@Cacheable` one |
| CategoryEquivalence.CreateAgrees | service-api/src/main/java/com/jeanbarcellos/project110/service/CategoryManualService.java:85-104 | on a healthy configured cache, manual `create` equals `@CachePut` plus `@CacheEvict` |
| CategoryEquivalence.UpdateAgrees | service-api/src/main/java/com/jeanbarcellos/project110/service/CategoryManualService.java:106-127 | on a healthy configured cache, manual `update` equals the annotated one, error paths included |
| CategoryEquivalence.DeleteAgrees | service-api/src/main/java/com/jeanbarcellos/project110/service/CategoryManualService.java:129-144 | on a healthy configured cache, manual `delete` equals the two `@CacheEvict`s |
| CategoryEquivalence.ClearCacheAgrees | service-api/src/main/java/com/jeanbarcellos/project110/service/CategoryManualService.java:146-154 | on a healthy configured cache, manual `clearCache` equals `@CacheEvict(allEntries = true)` |
| CategoryEquivalence.StepAgrees | service-api/src/main/java/com/jeanbarcellos/project110/service/CategoryManualService.java:37-154 | any one operation gives the same answer and world in both services and keeps the cache well typed |
| CategoryEquivalence.ManualEqualsDeclarative | service-api/src/main/java/com/jeanbarcellos/project110/service/CategoryManualService.java:37-154 | any sequence of operations gives the same answers and the same final world in the manual and the annotated category service |
| ProductManualService.Create | service-api/src/main/java/com/jeanbarcellos/project110/service/ProductManualService.java:90-104 | saves the mapped request and only evicts `all`; every other entry of the products cache is unchanged |
| ProductManualService.EvictResponse | service-api/src/main/java/com/jeanbarcellos/project110/service/ProductManualService.java:123 | evicts the response's id entry, and does nothing for a response without an id |
| ProductManualService.Update | service-api/src/main/java/com/jeanbarcellos/project110/service/ProductManualService.java:112-127 | a missing or unknown id fails before any effect; otherwise it saves the copied row, then evicts its id entry and `all` without caching the response; every other entry is kept |
| ProductService.GetAllProducts | service-api/src/main/java/com/jeanbarcellos/project110/service/ProductService.java:37-42 | it touches the store exactly when `products/all` is absent; a miss returns and caches the entity listing, and every other named cache is kept |
| ProductService.GetProductById | service-api/src/main/java/com/jeanbarcellos/project110/service/ProductService.java:50-56 | it touches the store exactly when the id's entry is absent; a miss returns and caches the row, or fails with the not-found message, and every other named cache is kept |
| ProductService.CreateProduct | service-api/src/main/java/com/jeanbarcellos/project110/service/ProductService.java:63-66 | saves the product and removes exactly `all` from the products cache, and every other named cache is kept |
| ProductService.UpdateProduct | service-api/src/main/java/com/jeanbarcellos/project110/service/ProductService.java:74-85 | a missing or unknown id fails with no effect; otherwise name, description and price are copied onto the row, which is saved, and its id entry and `all` are evicted, and every other named cache is kept |
| ProductService.DeleteProduct | service-api/src/main/java/com/jeanbarcellos/project110/service/ProductService.java:93-98 | deletes the row and removes exactly the id's entry and `all`, and every other named cache is kept |
| ProductEquivalence.MapCache | service-api/src/main/java/com/jeanbarcellos/project110/service/ProductManualService.java:54-56 | the manual view of a declarative cache has the same keys, and each value is the declarative one mapped to responses |
| ProductEquivalence.GetAllSimulates | service-api/src/main/java/com/jeanbarcellos/project110/service/ProductManualService.java:37-59 | from related states, manual `getAll` answers the mapped declarative answer and the states stay related |
| ProductEquivalence.GetByIdSimulates | service-api/src/main/java/com/jeanbarcellos/project110/service/ProductManualService.java:61-83 | from related states, manual `getById` answers the mapped declarative answer and the states stay related |
| ProductEquivalence.CreateSimulates | service-api/src/main/java/com/jeanbarcellos/project110/service/ProductManualService.java:85-104 | from related states, manual `create` answers the mapped declarative answer and the states stay related |
| ProductEquivalence.UpdateSimulates | service-api/src/main/java/com/jeanbarcellos/project110/service/ProductManualService.java:106-127 | from related states, manual `update` answers the mapped declarative answer, error paths included, and the states stay related |
| ProductEquivalence.DeleteSimulates | service-api/src/main/java/com/jeanbarcellos/project110/service/ProductManualService.java:129-144 | from related states, manual `delete` matches the declarative one and the states stay related |
| ProductEquivalence.StepSimulates | service-api/src/main/java/com/jeanbarcellos/project110/service/ProductManualService.java:37-154 | any one product operation keeps the relation and maps the answer |
| ProductEquivalence.ManualSimulatesDeclarative | service-api/src/main/java/com/jeanbarcellos/project110/service/ProductManualService.java:37-154 | on any sequence of operations, the manual answers are the declarative answers mapped by `toResponse`, and the final states are related |
| ProductEquivalence.EmptyIsRelated | service-api/src/main/java/com/jeanbarcellos/project110/config/CacheConfig.java:36-46 | an empty store with empty product caches is related, so the relation is satisfiable |
| PersonService.AllFromCache | service-api/src/main/java/com/jeanbarcellos/project110/service/PersonService.java:138-149 | an absent `persons` cache answers an empty list as a hit; a configured cache answers as the corrected read does |
| PersonService.AllFromCacheFixed | service-api/src/main/java/com/jeanbarcellos/project110/service/PersonService.java:138-149 | an absent cache or an absent `all` is a miss; a failing read raises, a stored list comes back as it is, and an entry of another type raises a type error |
| PersonService.PersonFromCache | service-api/src/main/java/com/jeanbarcellos/project110/service/PersonService.java:151-162 | an absent cache or an absent entry is a miss; a failing read raises, a stored person comes back as it is, and an entry of another type raises a type error |
| PersonService.Write | service-api/src/main/java/com/jeanbarcellos/project110/service/PersonService.java:167-195 | a write to an absent cache is skipped; otherwise it raises exactly when the backend fails and else applies the change |
| PersonService.AddPersonToCache | service-api/src/main/java/com/jeanbarcellos/project110/service/PersonService.java:167-174 | skipped without a cache; a person without an id raises a null-key error; a failing write raises; otherwise the person is stored under its id |
| PersonService.RemovePersonFromCache | service-api/src/main/java/com/jeanbarcellos/project110/service/PersonService.java:179-186 | skipped without a cache; otherwise it raises exactly on failure, or else removes exactly the id's entry |
| PersonService.SetPersonsToCache | service-api/src/main/java/com/jeanbarcellos/project110/service/PersonService.java:188-195 | skipped without a cache; otherwise it raises exactly on failure, or else sets `all` to the list |
| PersonService.UpdateAllPersonsCache | service-api/src/main/java/com/jeanbarcellos/project110/service/PersonService.java:125-133 | without a cache it does nothing at all; with one it lists the store and stores the listing under `all` |
| PersonService.GetAllPersonsWith | service-api/src/main/java/com/jeanbarcellos/project110/service/PersonService.java:34-47 | a cache error propagates, a hit is returned as is, and a miss lists the store; on a healthy write `all` then holds the listing, otherwise the caches are unchanged |
| PersonService.GetAllPersons | service-api/src/main/java/com/jeanbarcellos/project110/service/PersonService.java:34-47 | as written: without a cache it answers `[]` and never asks the store; with one it behaves as the corrected version |
| PersonService.GetAllPersonsFixed | service-api/src/main/java/com/jeanbarcellos/project110/service/PersonService.java:34-47 | corrected: without a cache it answers the store's listing; with one, a failing or wrong-typed read raises with no effect, a cached list is returned with no effect, and a miss behaves as `GetAllPersonsWith` on a miss |
| PersonService.GetPersonById | service-api/src/main/java/com/jeanbarcellos/project110/service/PersonService.java:54-70 | a cache error propagates with no effect, a hit answers the cached person with no effect; a miss answers the row and stores it under the row's id, or "Person not found" with the caches unchanged |
| PersonService.RefreshAfterSave | service-api/src/main/java/com/jeanbarcellos/project110/service/PersonService.java:77-84 | with a cache, `all` is reloaded from the store and then the saved person is stored under its id; a failing first write leaves the caches alone, a failing second one keeps only the new listing |
| PersonService.CreatePerson | service-api/src/main/java/com/jeanbarcellos/project110/service/PersonService.java:77-84 | the save always persists; on success the cache holds the new listing under `all` and the new person under its id, and a cache failure surfaces as an error after the save |
| PersonService.UpdatePerson | service-api/src/main/java/com/jeanbarcellos/project110/service/PersonService.java:91-103 | a failed lookup propagates with its effects; otherwise the copied person is saved, and on success `all` holds the new listing and the id entry holds the saved person |
| PersonService.DeletePerson | service-api/src/main/java/com/jeanbarcellos/project110/service/PersonService.java:110-118 | an unknown id raises "Person not found" without deleting; a known one is deleted, `all` is reloaded and the id entry is removed, each write taking effect exactly when it succeeds |
| PersonCoherence.EmptyIsCoherent | service-api/src/main/java/com/jeanbarcellos/project110/cache/PersonCache.java:166-173 | an empty store with empty caches satisfies the coherence invariant |
| PersonCoherence.AbsentCacheHidesPersons | service-api/src/main/java/com/jeanbarcellos/project110/service/PersonService.java:138-149 | with no `persons` cache and a non-empty store, `getAllPersons` answers `[]`, which is not the store's listing |
| PersonCoherence.AbsentCacheHidesPersonsExample | service-api/src/main/java/com/jeanbarcellos/project110/service/PersonService.java:138-149 | one stored person: `getPersonById(1)` finds them while `getAllPersons` answers `[]` |
| PersonCoherence.FixedGetAllTellsTruth | service-api/src/main/java/com/jeanbarcellos/project110/service/PersonService.java:34-47 | corrected: a successful `getAllPersons` answers exactly the store's listing, and always succeeds on a healthy backend |
| PersonCoherence.GetAllTellsTruthWhenConfigured | service-api/src/main/java/com/jeanbarcellos/project110/service/PersonService.java:34-47 | as written, a successful answer is still the listing whenever the cache is configured |
| PersonCoherence.GetPersonByIdTellsTruth | service-api/src/main/java/com/jeanbarcellos/project110/service/PersonService.java:54-70 | from a coherent state, a successful answer is the stored row, an unknown id is "Person not found", and a healthy backend always answers the row |
| PersonCoherence.GetAllKeepsCoherent | service-api/src/main/java/com/jeanbarcellos/project110/service/PersonService.java:34-47 | `getAllPersons`, as written and corrected, keeps the cache a mirror of the store whatever the backend does |
| PersonCoherence.GetPersonByIdKeepsCoherent | service-api/src/main/java/com/jeanbarcellos/project110/service/PersonService.java:54-70 | `getPersonById` keeps the cache a mirror of the store whatever the backend does |
| PersonCoherence.GetPersonByIdFillsCache | service-api/src/main/java/com/jeanbarcellos/project110/service/PersonService.java:54-70 | from a coherent state, a read of a stored id fills the cache, and a second read answers the same with no store call |
| PersonCoherence.CreateThenReadsHit | service-api/src/main/java/com/jeanbarcellos/project110/service/PersonService.java:77-84 | after a healthy `createPerson`, reading the new person and the listing are cache hits answering the store's contents |
| PersonCoherence.RefreshKeepsCoherent | service-api/src/main/java/com/jeanbarcellos/project110/service/PersonService.java:125-133 | a save followed by a successful listing refresh and person put leaves the cache mirroring the store |
| PersonCoherence.CreateKeepsCoherent | service-api/src/main/java/com/jeanbarcellos/project110/service/PersonService.java:77-84 | on a healthy backend `createPerson` keeps the cache a mirror of the store |
| PersonCoherence.UpdateKeepsCoherent | service-api/src/main/java/com/jeanbarcellos/project110/service/PersonService.java:91-103 | on a healthy backend `updatePerson` keeps the cache a mirror of the store |
| PersonCoherence.DeleteKeepsCoherent | service-api/src/main/java/com/jeanbarcellos/project110/service/PersonService.java:110-118 | on a healthy backend `deletePerson` keeps the cache a mirror of the store |
| PersonCoherence.FailedRefreshLeavesStaleListing | service-api/src/main/java/com/jeanbarcellos/project110/service/PersonService.java:77-84 | a failing listing write after `save` raises, keeps the new person in the store and leaves a stale cached listing |
| ManualCoherence.MirrorsAfterRowChange | service-api/src/main/java/com/jeanbarcellos/project110/service/CategoryManualService.java:99-101 | with `all` evicted and the changed ids' entries gone, the cache mirrors the changed store |
| ManualCoherence.CategoryGetAllTellsTruth | service-api/src/main/java/com/jeanbarcellos/project110/service/CategoryManualService.java:41-59 | from a coherent state, `getAll` answers the mapped store listing whatever the backend does, and the state stays coherent |
| ManualCoherence.CategoryGetByIdTellsTruth | service-api/src/main/java/com/jeanbarcellos/project110/service/CategoryManualService.java:65-83 | from a coherent state, `getById` answers the mapped row or the not-found error whatever the backend does, and the state stays coherent |
| ManualCoherence.CategoryCreateKeepsCoherent | service-api/src/main/java/com/jeanbarcellos/project110/service/CategoryManualService.java:91-104 | on a healthy backend `create` keeps the categories cache a mirror of the store |
| ManualCoherence.CategoryUpdateKeepsCoherent | service-api/src/main/java/com/jeanbarcellos/project110/service/CategoryManualService.java:112-127 | on a healthy backend `update` keeps the categories cache a mirror of the store |
| ManualCoherence.CategoryDeleteKeepsCoherent | service-api/src/main/java/com/jeanbarcellos/project110/service/CategoryManualService.java:137-144 | on a healthy backend `delete` keeps the categories cache a mirror of the store |
| ManualCoherence.CategoryClearCacheKeepsCoherent | service-api/src/main/java/com/jeanbarcellos/project110/service/CategoryManualService.java:150-154 | `clearCache` keeps the categories cache a mirror whatever the backend does |
| ManualCoherence.CategoryFailedPutServesStale | service-api/src/main/java/com/jeanbarcellos/project110/service/CategoryManualService.java:112-127 | when the put after an update fails, the update succeeds but the next `getById` serves the old response |
| ManualCoherence.ProductGetAllTellsTruth | service-api/src/main/java/com/jeanbarcellos/project110/service/ProductManualService.java:41-59 | from a coherent state, `getAll` answers the mapped store listing whatever the backend does, and the state stays coherent |
| ManualCoherence.ProductGetByIdTellsTruth | service-api/src/main/java/com/jeanbarcellos/project110/service/ProductManualService.java:65-83 | from a coherent state, `getById` answers the mapped row or the not-found error whatever the backend does, and the state stays coherent |
| ManualCoherence.ProductCreateKeepsCoherent | service-api/src/main/java/com/jeanbarcellos/project110/service/ProductManualService.java:90-104 | on a healthy backend `create` of an entity without an id keeps the products cache a mirror |
| ManualCoherence.ProductCreateWithIdServesStale | service-api/src/main/java/com/jeanbarcellos/project110/service/ProductManualService.java:90-104 | `create` only evicts `all`, so a create that overwrites a cached id leaves the old response cached |
| ManualCoherence.ProductUpdateKeepsCoherent | service-api/src/main/java/com/jeanbarcellos/project110/service/ProductManualService.java:112-127 | on a healthy backend `update` keeps the products cache a mirror of the store |
| ManualCoherence.ProductDeleteKeepsCoherent | service-api/src/main/java/com/jeanbarcellos/project110/service/ProductManualService.java:137-144 | on a healthy backend `delete` keeps the products cache a mirror of the store |
| ManualCoherence.ProductClearCacheKeepsCoherent | service-api/src/main/java/com/jeanbarcellos/project110/service/ProductManualService.java:150-154 | `clearCache` keeps the products cache a mirror whatever the backend does |
| Scenarios.EvictAllKeepsItemEntry | service-api/src/main/java/com/jeanbarcellos/project110/cache/ProductCache.java:60-87 | with `products/all` and `products/<id>` set, evicting `all` leaves the id entry readable |
| Scenarios.ClearCategoriesKeepsProducts | service-api/src/main/java/com/jeanbarcellos/project110/cache/CategoryCache.java:121-133 | clearing `categories` leaves `products/<id>` readable and makes every category read miss |
| Scenarios.ColdThenWarmGetById | service-api/src/main/java/com/jeanbarcellos/project110/service/CategoryManualService.java:65-83 | a cold `getById` of any stored id calls the store once; the second call answers the same with no store call |
| Scenarios.CategoryUpdateWritesThrough | service-api/src/main/java/com/jeanbarcellos/project110/service/CategoryManualService.java:112-127 | after `update(id)`, `getById(id)` answers the update without the store, while `getAll` calls the store once |
| Scenarios.ProductUpdateInvalidates | service-api/src/main/java/com/jeanbarcellos/project110/service/ProductManualService.java:112-127 | after `update(id)`, `getById(id)` goes back to the store and answers the same response |

## Left out

- Time to live is not modelled. The per-cache TTLs in `AppConfigProperties` and `PersonCache.TTL` (10 minutes, kept as a constant) need a clock, so entries never expire in the model.
- Logging, the artificial `ThreadUtils.delay()` before store queries, the controllers and the Spring wiring are left out. They have no effect on cached data.
- JSON serialization of cached values is not modelled. A value comes back from the cache as it was put, with its runtime type intact.
- Concurrency is not modelled: cache stampedes and interleaved writers between a miss and the following put are out of scope. Every operation runs alone.
- Redis `keys` glob metacharacters are not modelled. A pattern `manual-cache::<cache>::*` is modelled as a prefix match, which agrees with Redis only for cache names without `*`, `?`, `[` or `\`.
- Ids are unbounded integers, not 64-bit `Long`s. The decimal rendering of an id is modelled for non-negative and negative values alike.
- A failing backend call is modelled as having no effect. A Redis write that fails halfway is not modelled.
- The `findAll` order is modelled as insertion order. A JPA store does not promise an order.
- `save` of an entity whose id is not stored inserts it under that id. JPA's merge semantics for detached entities are not modelled.
- The mapper is abstract, with three arrows: entity to response, request to entity, and copy. Only `KeepsId`, `Produces` and, for products, the `ProductMapper` predicate constrain it. `ProductMapper.copy` leaves three setters commented out, so the product equivalence assumes a copy that sets what `ProductService.updateProduct` sets.
- Transactions are not modelled. `PersonService` keeps the save even when a later cache write raises; a `@Transactional` rollback would undo it.
- `ProductService.updateProduct` calls `getProductById` on `this`, so Spring's proxy does not apply `@Cacheable` to that call. The model reads the store directly there, as the self-invocation does.
- The comments above `CategoryManualService.create` and `update` name `#request.id` as the put key. The code puts under the response's id, and the model follows the code.
- CategoryService and ProductService: failures of the cache calls Spring makes for `@Cacheable`, `@CachePut` and `@CacheEvict` are not modelled; only the declared effects on a healthy backend are. Under Spring's default cache error handler such a failure would propagate to the caller as an exception.
- CategoryEquivalence.ManualEqualsDeclarative: holds only when every backend call succeeds and the categories cache is configured. Under failures the manual service is fail-open while the annotated one would raise, and the model states the manual behaviour separately.
- ProductEquivalence.ManualSimulatesDeclarative: equivalence is up to `toResponse`, because the annotated service caches entities and the manual one caches responses. It assumes healthy calls and a mapper satisfying `ProductMapper`.
- ManualCoherence.ProductCreateKeepsCoherent: requires the mapped entity to carry no id. `ProductRequest`'s id is `@JsonIgnore`d, and `ManualCoherence.ProductCreateWithIdServesStale` shows what happens otherwise.
- ManualCoherence.CategoryFailedPutServesStale: requires the mapper's copy to keep the row's id, which `CategoryMapper.copy` does but the abstract mapper does not promise.

## Findings

| source | as written | input that shows it | evidently intended | confidence | as-written member | corrected member |
|---|---|---|---|---|---|---|
| service-api/src/main/java/com/jeanbarcellos/project110/service/PersonService.java:138-149 | `getAllPersonsFromCache` starts from an empty list and returns it when `getCache("persons")` is null, so `getAllPersons` treats the missing cache as a hit and answers `[]` | a cache manager without a `persons` cache and a store holding one person with id 1: `getPersonById(1)` finds the person, `getAllPersons()` answers `[]` | a missing cache reads as a miss, so the service lists the store | not executed | PersonCoherence.AbsentCacheHidesPersonsExample | PersonCoherence.FixedGetAllTellsTruth |

=== FILE: cache_aside.dfy ===
/** The part `CategoryManualService` and `ProductManualService` share
    line for line: cache-aside reads through an entity-cache wrapper, the
    delete that invalidates the id and the collection entry, and the cache
    clear. `prefix` is the text of the not-found message before the id. */
module CacheAside {
  import opened Wrappers
  import opened Values
  import opened ServiceState
  import opened Mapping
  import Repository
  import EC = EntityCache

  /** The message of the exception `findByIdOrThrow` raises. */
  function NotFoundMessage(prefix: string, id: Id): string {
    prefix + IdText(id)
  }

  /** Under one prefix, distinct ids give distinct not-found messages. */
  lemma NotFoundMessageNamesId(prefix: string, a: Id, b: Id)
    requires NotFoundMessage(prefix, a) == NotFoundMessage(prefix, b)
    ensures a == b
  {
    assert IdText(a) == NotFoundMessage(prefix, a)[|prefix|..];
    assert IdText(b) == NotFoundMessage(prefix, b)[|prefix|..];
    IdTextInjective(a, b);
  }

  /** `getAll`: the cached collection, or the mapped listing, which is then cached. */
  function GetAll(c: EC.Wrapper, w: World, mp: Mapper, readOc: Outcome, writeOc: Outcome): (s: Step<seq<Obj>>)
    ensures s.out.Success?
    ensures s.world.repo.rows == w.repo.rows
    ensures s.world.repo == w.repo <==> EC.GetAll(c, w.caches, readOc).Some?
    ensures EC.GetAll(c, w.caches, readOc).Some? ==> s == Step(Success(EC.GetAll(c, w.caches, readOc).value), w)
    ensures EC.GetAll(c, w.caches, readOc).None? ==>
      && s.out.value == ToResponseList(mp, Repository.Listing(w.repo))
      && s.world.repo.log == w.repo.log + [Repository.FindAll]
      && s.world.caches == EC.PutAll(c, w.caches, s.out.value, writeOc)
  {
    var cached := EC.GetAll(c, w.caches, readOc);
    if cached.Some? then Step(Success(cached.value), w)
    else
      var (entities, repo) := Repository.FindAllOp(w.repo);
      var responses := ToResponseList(mp, entities);
      Step(Success(responses), World(repo, EC.PutAll(c, w.caches, responses, writeOc)))
  }

  /** `getById`: the cached response, or the mapped row, which is then
      cached; an unknown id raises the not-found error. */
  function GetById(c: EC.Wrapper, prefix: string, w: World, mp: Mapper, id: Id, readOc: Outcome, writeOc: Outcome): (s: Step<Obj>)
    ensures s.world.repo.rows == w.repo.rows
    ensures s.world.repo == w.repo <==> EC.GetById(c, w.caches, id, readOc).Some?
    ensures EC.GetById(c, w.caches, id, readOc).Some? ==> s == Step(Success(EC.GetById(c, w.caches, id, readOc).value), w)
    ensures EC.GetById(c, w.caches, id, readOc).None? ==>
      && s.world.repo.log == w.repo.log + [Repository.FindById(id)]
      && (id !in w.repo.rows ==> s.out == Failure(NotFound(NotFoundMessage(prefix, id))) && s.world.caches == w.caches)
      && (id in w.repo.rows ==>
            && s.out == Success(mp.toResponse(w.repo.rows[id]))
            && s.world.caches == EC.Put(c, w.caches, Some(s.out.value), writeOc))
  {
    var cached := EC.GetById(c, w.caches, id, readOc);
    if cached.Some? then Step(Success(cached.value), w)
    else
      var (found, repo) := Repository.FindByIdOp(w.repo, id);
      if found.None? then Step(Failure(NotFound(NotFoundMessage(prefix, id))), World(repo, w.caches))
      else
        var response := mp.toResponse(found.value);
        Step(Success(response), World(repo, EC.Put(c, w.caches, Some(response), writeOc)))
  }

  /** The entries a write of `response` may change: `all` and the response's id, if any. */
  function Touched(response: Obj): set<Key> {
    if response.id.Some? then {All, EntityId(response.id.value)} else {All}
  }

  /** Deletes from the store, then evicts the id and the collection entry. */
  function Delete(c: EC.Wrapper, w: World, id: Id, evictIdOc: Outcome, evictAllOc: Outcome): (s: Step<()>)
    ensures s.out.Success?
    ensures s.world.repo == Repository.DeleteByIdOp(w.repo, id)
    ensures EC.OnlyOwnCache(c, w.caches, s.world.caches)
    ensures evictIdOc.Ok? && c.cacheName in w.caches ==> EntityId(id) !in s.world.caches[c.cacheName]
    ensures evictAllOc.Ok? && c.cacheName in w.caches ==> All !in s.world.caches[c.cacheName]
    ensures c.cacheName in w.caches ==>
      s.world.caches[c.cacheName] - {EntityId(id), All} == w.caches[c.cacheName] - {EntityId(id), All}
  {
    var repo := Repository.DeleteByIdOp(w.repo, id);
    var caches := EC.EvictById(c, w.caches, id, evictIdOc);
    Step(Success(()), World(repo, EC.EvictAll(c, caches, evictAllOc)))
  }

  function ClearCache(c: EC.Wrapper, w: World, oc: Outcome): (s: Step<()>)
    requires c.canClear
    ensures s.out.Success? && s.world.repo == w.repo
    ensures EC.OnlyOwnCache(c, w.caches, s.world.caches)
    ensures oc.Ok? && c.cacheName in w.caches ==> s.world.caches[c.cacheName] == map[]
  {
    Step(Success(()), w.(caches := EC.ClearAllEntries(c, w.caches, oc)))
  }
}

=== FILE: category_equivalence.dfy ===
/** `CategoryManualService` claims to reproduce `CategoryService` by hand. On
    a healthy backend it does: from a ready state, every operation gives the
    same result and leaves the same store and the same caches, so any
    sequence of operations does too. */
module CategoryEquivalence {
  import opened Wrappers
  import opened Values
  import opened NamedCaches
  import opened ServiceState
  import opened Mapping
  import Repository
  import EC = EntityCache
  import Manual = CategoryManualService
  import Declared = CategoryService

  /** What both variants rely on: the `categories` cache is configured and
      holds only what the services store, the store is consistent, and the
      mapper yields category responses that keep the entity's id. */
  ghost predicate Ready(w: World, mp: Mapper) {
    && Declared.CacheName in w.caches
    && WellTyped(w.caches[Declared.CacheName], CategoryResponse)
    && Repository.Valid(w.repo)
    && KeepsId(mp)
    && Produces(mp, CategoryResponse)
  }

  /** The two variants name the same cache and the same collection key. */
  lemma SameCacheAndKeys()
    ensures Manual.Cache.cacheName == Declared.CacheName
    ensures All == Declared.CacheKeyAll
    ensures forall id: Id :: Manual.NotFoundMessage(id) == Declared.NotFoundMessage(id)
  {
  }

  lemma GetAllAgrees(w: World, mp: Mapper)
    requires Ready(w, mp)
    ensures Manual.GetAll(w, mp, Ok, Ok) == Declared.GetAll(w, mp)
  {
    var c := w.caches[Declared.CacheName];
    if All in c {
      assert c[All].List?;
    }
  }

  lemma GetByIdAgrees(w: World, mp: Mapper, id: Id)
    requires Ready(w, mp)
    ensures Manual.GetById(w, mp, id, Ok, Ok) == Declared.GetById(w, mp, id)
  {
    var c := w.caches[Declared.CacheName];
    if EntityId(id) !in c && id in w.repo.rows {
      assert w.repo.rows[id].id == Some(id);
      assert mp.toResponse(w.repo.rows[id]).id == Some(id);
    }
  }

  lemma CreateAgrees(w: World, mp: Mapper, request: Request)
    requires Ready(w, mp)
    ensures Manual.Create(w, mp, request, Ok, Ok) == Declared.Create(w, mp, request)
  {
    var (saved, repo) := Repository.SaveOp(w.repo, mp.toEntity(request));
    assert mp.toResponse(saved).id == saved.id;
  }

  lemma UpdateAgrees(w: World, mp: Mapper, request: Request)
    requires Ready(w, mp)
    ensures Manual.Update(w, mp, request, Ok, Ok) == Declared.Update(w, mp, request)
  {
    if request.id.Some? && request.id.value in w.repo.rows {
      var found := w.repo.(log := w.repo.log + [Repository.FindById(request.id.value)]);
      var (saved, repo) := Repository.SaveOp(found, mp.copy(w.repo.rows[request.id.value], request));
      assert mp.toResponse(saved).id == saved.id;
    }
  }

  lemma DeleteAgrees(w: World, mp: Mapper, id: Id)
    requires Ready(w, mp)
    ensures Manual.Delete(w, id, Ok, Ok) == Declared.Delete(w, id)
  {
    var c := w.caches[Declared.CacheName];
    assert c - {EntityId(id)} - {All} == c - {EntityId(id), All};
  }

  lemma ClearCacheAgrees(w: World, mp: Mapper)
    requires Ready(w, mp)
    ensures Manual.ClearCache(w, Ok) == Declared.ClearCache(w)
  {
  }

  /** The category operations, as a client issues them. */
  datatype Op =
    | GetAll
    | GetById(id: Id)
    | Create(request: Request)
    | Update(request: Request)
    | Delete(id: Id)
    | ClearCache

  /** What a client sees of one operation. */
  datatype Answer = Listed(objs: seq<Obj>) | Returned(obj: Obj) | Done | Raised(error: Error)

  function Seen<T>(out: Result<T, Error>, f: T -> Answer): Answer {
    match out
    case Success(v) => f(v)
    case Failure(e) => Raised(e)
  }

  function StepManual(w: World, mp: Mapper, op: Op): (Answer, World) {
    match op
    case GetAll => var s := Manual.GetAll(w, mp, Ok, Ok); (Seen(s.out, xs => Listed(xs)), s.world)
    case GetById(id) => var s := Manual.GetById(w, mp, id, Ok, Ok); (Seen(s.out, x => Returned(x)), s.world)
    case Create(r) => var s := Manual.Create(w, mp, r, Ok, Ok); (Seen(s.out, x => Returned(x)), s.world)
    case Update(r) => var s := Manual.Update(w, mp, r, Ok, Ok); (Seen(s.out, x => Returned(x)), s.world)
    case Delete(id) => var s := Manual.Delete(w, id, Ok, Ok); (Seen(s.out, _ => Done), s.world)
    case ClearCache => var s := Manual.ClearCache(w, Ok); (Seen(s.out, _ => Done), s.world)
  }

  function StepDeclared(w: World, mp: Mapper, op: Op): (Answer, World) {
    match op
    case GetAll => var s := Declared.GetAll(w, mp); (Seen(s.out, xs => Listed(xs)), s.world)
    case GetById(id) => var s := Declared.GetById(w, mp, id); (Seen(s.out, x => Returned(x)), s.world)
    case Create(r) => var s := Declared.Create(w, mp, r); (Seen(s.out, x => Returned(x)), s.world)
    case Update(r) => var s := Declared.Update(w, mp, r); (Seen(s.out, x => Returned(x)), s.world)
    case Delete(id) => var s := Declared.Delete(w, id); (Seen(s.out, _ => Done), s.world)
    case ClearCache => var s := Declared.ClearCache(w); (Seen(s.out, _ => Done), s.world)
  }

  /** The answers to `ops` issued in order, and the final state. */
  function RunManual(w: World, mp: Mapper, ops: seq<Op>): (seq<Answer>, World)
    decreases |ops|
  {
    if ops == [] then ([], w)
    else
      var (a, w') := StepManual(w, mp, ops[0]);
      var (rest, last) := RunManual(w', mp, ops[1..]);
      ([a] + rest, last)
  }

  function RunDeclared(w: World, mp: Mapper, ops: seq<Op>): (seq<Answer>, World)
    decreases |ops|
  {
    if ops == [] then ([], w)
    else
      var (a, w') := StepDeclared(w, mp, ops[0]);
      var (rest, last) := RunDeclared(w', mp, ops[1..]);
      ([a] + rest, last)
  }

  lemma WellTypedAfterPut(c: NamedCache, k: Key, v: Value)
    requires WellTyped(c, CategoryResponse)
    requires k == All ==> v.List?
    requires k.EntityId? ==> v.Item? && v.obj.cls == CategoryResponse
    ensures WellTyped(c[k := v], CategoryResponse)
  {
  }

  lemma ReadyAfterGetAll(w: World, mp: Mapper)
    requires Ready(w, mp)
    ensures Ready(Manual.GetAll(w, mp, Ok, Ok).world, mp)
  {
    Repository.OperationsPreserveValid(w.repo, Obj(Category, None, map[]), 0);
  }

  lemma ReadyAfterGetById(w: World, mp: Mapper, id: Id)
    requires Ready(w, mp)
    ensures Ready(Manual.GetById(w, mp, id, Ok, Ok).world, mp)
  {
    var c := w.caches[Declared.CacheName];
    Repository.OperationsPreserveValid(w.repo, Obj(Category, None, map[]), id);
    if EntityId(id) !in c && id in w.repo.rows {
      WellTypedAfterPut(c, EntityId(id), Item(mp.toResponse(w.repo.rows[id])));
    }
  }

  lemma ReadyAfterCreate(w: World, mp: Mapper, r: Request)
    requires Ready(w, mp)
    ensures Ready(Manual.Create(w, mp, r, Ok, Ok).world, mp)
  {
    var c := w.caches[Declared.CacheName];
    var x := mp.toEntity(r);
    Repository.OperationsPreserveValid(w.repo, x, 0);
    var saved := Repository.SaveOp(w.repo, x).0;
    WellTypedAfterPut(c, EntityId(saved.id.value), Item(mp.toResponse(saved)));
  }

  lemma ReadyAfterUpdate(w: World, mp: Mapper, r: Request)
    requires Ready(w, mp)
    ensures Ready(Manual.Update(w, mp, r, Ok, Ok).world, mp)
  {
    if r.id.Some? {
      var id := r.id.value;
      Repository.OperationsPreserveValid(w.repo, Obj(Category, None, map[]), id);
      if id in w.repo.rows {
        var c := w.caches[Declared.CacheName];
        var found := Repository.FindByIdOp(w.repo, id).1;
        var x := mp.copy(w.repo.rows[id], r);
        Repository.OperationsPreserveValid(found, x, id);
        var saved := Repository.SaveOp(found, x).0;
        WellTypedAfterPut(c, EntityId(saved.id.value), Item(mp.toResponse(saved)));
      }
    }
  }

  lemma ReadyAfterDelete(w: World, mp: Mapper, id: Id)
    requires Ready(w, mp)
    ensures Ready(Manual.Delete(w, id, Ok, Ok).world, mp)
  {
    Repository.OperationsPreserveValid(w.repo, Obj(Category, None, map[]), id);
  }

  /** One operation agrees, and leaves a ready state behind. */
  lemma StepAgrees(w: World, mp: Mapper, op: Op)
    requires Ready(w, mp)
    ensures StepManual(w, mp, op) == StepDeclared(w, mp, op)
    ensures Ready(StepManual(w, mp, op).1, mp)
  {
    match op {
      case GetAll => GetAllAgrees(w, mp); ReadyAfterGetAll(w, mp);
      case GetById(id) => GetByIdAgrees(w, mp, id); ReadyAfterGetById(w, mp, id);
      case Create(r) => CreateAgrees(w, mp, r); ReadyAfterCreate(w, mp, r);
      case Update(r) => UpdateAgrees(w, mp, r); ReadyAfterUpdate(w, mp, r);
      case Delete(id) => DeleteAgrees(w, mp, id); ReadyAfterDelete(w, mp, id);
      case ClearCache => ClearCacheAgrees(w, mp);
    }
  }

  /** Any sequence of category operations issued to the manual service on a
      healthy backend gives the answers and the final state the declarative
      service gives. */
  lemma {:induction false} ManualEqualsDeclarative(w: World, mp: Mapper, ops: seq<Op>)
    requires Ready(w, mp)
    ensures RunManual(w, mp, ops) == RunDeclared(w, mp, ops)
    decreases |ops|
  {
    if ops != [] {
      StepAgrees(w, mp, ops[0]);
      ManualEqualsDeclarative(StepManual(w, mp, ops[0]).1, mp, ops[1..]);
    }
  }
}

=== FILE: category_manual_service.dfy ===
/** `CategoryManualService`: cache-aside reads and write-through writes over
    `CategoryCache`. Each cache call takes its backend outcome; the wrapper
    absorbs failures, so only the store's errors reach the caller. */
module CategoryManualService {
  import opened Wrappers
  import opened Values
  import opened ServiceState
  import opened Mapping
  import Repository
  import EC = EntityCache
  import CacheAside

  const Cache: EC.Wrapper := EC.CategoryCache

  function NotFoundMessage(id: Id): string {
    CacheAside.NotFoundMessage("Category not found: ", id)
  }

  function GetAll(w: World, mp: Mapper, readOc: Outcome, writeOc: Outcome): Step<seq<Obj>> {
    CacheAside.GetAll(Cache, w, mp, readOc, writeOc)
  }

  function GetById(w: World, mp: Mapper, id: Id, readOc: Outcome, writeOc: Outcome): Step<Obj> {
    CacheAside.GetById(Cache, "Category not found: ", w, mp, id, readOc, writeOc)
  }

  /** Saves the new category, caches its response under its id, then
      invalidates the collection entry. */
  function Create(w: World, mp: Mapper, request: Request, putOc: Outcome, evictOc: Outcome): (s: Step<Obj>)
    ensures var (saved, repo) := Repository.SaveOp(w.repo, mp.toEntity(request));
      && s.out == Success(mp.toResponse(saved))
      && s.world.repo == repo
    ensures EC.OnlyOwnCache(Cache, w.caches, s.world.caches)
    ensures evictOc.Ok? && Cache.cacheName in w.caches ==> All !in s.world.caches[Cache.cacheName]
    ensures putOc.Ok? && Cache.cacheName in w.caches && s.out.value.id.Some? ==>
      && EntityId(s.out.value.id.value) in s.world.caches[Cache.cacheName]
      && s.world.caches[Cache.cacheName][EntityId(s.out.value.id.value)] == Item(s.out.value)
    ensures Cache.cacheName in w.caches ==>
      var touched := CacheAside.Touched(s.out.value);
      s.world.caches[Cache.cacheName] - touched == w.caches[Cache.cacheName] - touched
  {
    var (saved, repo) := Repository.SaveOp(w.repo, mp.toEntity(request));
    var response := mp.toResponse(saved);
    var caches := EC.Put(Cache, w.caches, Some(response), putOc);
    Step(Success(response), World(repo, EC.EvictAll(Cache, caches, evictOc)))
  }

  /** Loads the category or fails before any change, copies the request onto
      it, saves it, caches the response under its id and invalidates the
      collection entry. */
  function Update(w: World, mp: Mapper, request: Request, putOc: Outcome, evictOc: Outcome): (s: Step<Obj>)
    ensures request.id.None? ==> s == Step(Failure(MissingId), w)
    ensures request.id.Some? && request.id.value !in w.repo.rows ==>
      && s.out == Failure(NotFound(NotFoundMessage(request.id.value)))
      && s.world == World(w.repo.(log := w.repo.log + [Repository.FindById(request.id.value)]), w.caches)
    ensures request.id.Some? && request.id.value in w.repo.rows ==>
      var found := w.repo.(log := w.repo.log + [Repository.FindById(request.id.value)]);
      var (saved, repo) := Repository.SaveOp(found, mp.copy(w.repo.rows[request.id.value], request));
      && s.out == Success(mp.toResponse(saved))
      && s.world.repo == repo
    ensures EC.OnlyOwnCache(Cache, w.caches, s.world.caches)
    ensures s.out.Success? && evictOc.Ok? && Cache.cacheName in w.caches ==> All !in s.world.caches[Cache.cacheName]
    ensures s.out.Success? && putOc.Ok? && Cache.cacheName in w.caches && s.out.value.id.Some? ==>
      && EntityId(s.out.value.id.value) in s.world.caches[Cache.cacheName]
      && s.world.caches[Cache.cacheName][EntityId(s.out.value.id.value)] == Item(s.out.value)
    ensures s.out.Success? && Cache.cacheName in w.caches ==>
      var touched := CacheAside.Touched(s.out.value);
      s.world.caches[Cache.cacheName] - touched == w.caches[Cache.cacheName] - touched
  {
    if request.id.None? then Step(Failure(MissingId), w)
    else
      var id := request.id.value;
      var (found, repo) := Repository.FindByIdOp(w.repo, id);
      if found.None? then Step(Failure(NotFound(NotFoundMessage(id))), World(repo, w.caches))
      else
        var (saved, repo') := Repository.SaveOp(repo, mp.copy(found.value, request));
        var response := mp.toResponse(saved);
        var caches := EC.Put(Cache, w.caches, Some(response), putOc);
        Step(Success(response), World(repo', EC.EvictAll(Cache, caches, evictOc)))
  }

  function Delete(w: World, id: Id, evictIdOc: Outcome, evictAllOc: Outcome): Step<()> {
    CacheAside.Delete(Cache, w, id, evictIdOc, evictAllOc)
  }

  function ClearCache(w: World, oc: Outcome): Step<()> {
    CacheAside.ClearCache(Cache, w, oc)
  }
}

=== FILE: category_service.dfy ===
/** `CategoryService`: the category operations with caching declared by
    annotations on the `categories` cache. `@Cacheable` reads before the
    method and stores its result on a miss; `@CachePut` and `@CacheEvict` act
    after the method returns, and not at all when it throws. */
module CategoryService {
  import opened Wrappers
  import opened Values
  import opened ServiceState
  import opened Mapping
  import opened DeclaredCaching
  import Repository

  const CacheName: string := "categories"

  /** The key expression `'all'` is a SpEL string literal: the key `all`. */
  const CacheKeyAll: Key := Literal("all")

  function NotFoundMessage(id: Id): string {
    "Category not found: " + IdText(id)
  }

  /** `@Cacheable(key = "'all'")` around the full listing. A cached value
      that is not a list fails the caller's cast. */
  function GetAll(w: World, mp: Mapper): (s: Step<seq<Obj>>)
    ensures s.world.repo.rows == w.repo.rows
    ensures s.world.repo == w.repo <==> Cached(w.caches, CacheName, CacheKeyAll).Some?
    ensures match Cached(w.caches, CacheName, CacheKeyAll)
      case Some(List(xs)) => s == Step(Success(xs), w)
      case Some(Item(_)) => s == Step(Failure(TypeMismatch), w)
      case None =>
        && s.out == Success(ToResponseList(mp, Repository.Listing(w.repo)))
        && s.world.caches == CachePut(w.caches, CacheName, CacheKeyAll, List(s.out.value))
    ensures KeepsOthers(w.caches, s.world.caches, CacheName)
  {
    match Cached(w.caches, CacheName, CacheKeyAll)
    case Some(v) =>
      if v.List? then Step(Success(v.objs), w) else Step(Failure(TypeMismatch), w)
    case None =>
      var (entities, repo) := Repository.FindAllOp(w.repo);
      var result := ToResponseList(mp, entities);
      Step(Success(result), World(repo, CachePut(w.caches, CacheName, CacheKeyAll, List(result))))
  }

  /** `@Cacheable(key = "#id")` around the lookup by id; a not-found exception
      caches nothing. */
  function GetById(w: World, mp: Mapper, id: Id): (s: Step<Obj>)
    ensures s.world.repo.rows == w.repo.rows
    ensures s.world.repo == w.repo <==> Cached(w.caches, CacheName, EntityId(id)).Some?
    ensures match Cached(w.caches, CacheName, EntityId(id))
      case Some(v) =>
        s == Step(if v.Item? && v.obj.cls == CategoryResponse then Success(v.obj) else Failure(TypeMismatch), w)
      case None =>
        if id in w.repo.rows then
          && s.out == Success(mp.toResponse(w.repo.rows[id]))
          && s.world.caches == CachePut(w.caches, CacheName, EntityId(id), Item(s.out.value))
        else
          s.out == Failure(NotFound(NotFoundMessage(id))) && s.world.caches == w.caches
    ensures KeepsOthers(w.caches, s.world.caches, CacheName)
  {
    match Cached(w.caches, CacheName, EntityId(id))
    case Some(v) =>
      if v.Item? && v.obj.cls == CategoryResponse then Step(Success(v.obj), w) else Step(Failure(TypeMismatch), w)
    case None =>
      var (found, repo) := Repository.FindByIdOp(w.repo, id);
      if found.None? then Step(Failure(NotFound(NotFoundMessage(id))), World(repo, w.caches))
      else
        var result := mp.toResponse(found.value);
        Step(Success(result), World(repo, CachePut(w.caches, CacheName, EntityId(id), Item(result))))
  }

  /** After a method returned `result`: `@CachePut(key = "#result.id")`, then
      `@CacheEvict(key = "'all'")`. A null id is rejected as a cache key. */
  function PutResultEvictAll(repo: Repository.Repo, caches: NamedCaches.Manager, result: Obj): (s: Step<Obj>)
    ensures s.world.repo == repo
    ensures result.id.None? <==> s.out == Failure(NullCacheKey)
    ensures result.id.None? ==> s.world.caches == caches
    ensures result.id.Some? ==>
      && s.out == Success(result)
      && Named(s.world.caches, CacheName) == Named(caches, CacheName)[EntityId(result.id.value) := Item(result)] - {CacheKeyAll}
    ensures KeepsOthers(caches, s.world.caches, CacheName)
  {
    if result.id.None? then Step(Failure(NullCacheKey), World(repo, caches))
    else
      var put := CachePut(caches, CacheName, EntityId(result.id.value), Item(result));
      Step(Success(result), World(repo, CacheEvict(put, CacheName, CacheKeyAll)))
  }

  function Create(w: World, mp: Mapper, request: Request): (s: Step<Obj>)
    ensures var (saved, repo) := Repository.SaveOp(w.repo, mp.toEntity(request));
      && s.world.repo == repo
      && (mp.toResponse(saved).id.Some? ==> s.out == Success(mp.toResponse(saved)))
    ensures s.out.Success? ==>
      && s.out.value.id.Some?
      && Named(s.world.caches, CacheName) == Named(w.caches, CacheName)[EntityId(s.out.value.id.value) := Item(s.out.value)] - {CacheKeyAll}
    ensures KeepsOthers(w.caches, s.world.caches, CacheName)
  {
    var (saved, repo) := Repository.SaveOp(w.repo, mp.toEntity(request));
    PutResultEvictAll(repo, w.caches, mp.toResponse(saved))
  }

  function Update(w: World, mp: Mapper, request: Request): (s: Step<Obj>)
    ensures request.id.None? ==> s == Step(Failure(MissingId), w)
    ensures request.id.Some? && request.id.value !in w.repo.rows ==>
      && s.out == Failure(NotFound(NotFoundMessage(request.id.value)))
      && s.world.caches == w.caches
    ensures request.id.Some? && request.id.value in w.repo.rows ==>
      var found := w.repo.(log := w.repo.log + [Repository.FindById(request.id.value)]);
      var (saved, repo) := Repository.SaveOp(found, mp.copy(w.repo.rows[request.id.value], request));
      && s.world.repo == repo
      && (mp.toResponse(saved).id.Some? ==> s.out == Success(mp.toResponse(saved)))
    ensures s.out.Success? ==>
      && s.out.value.id.Some?
      && Named(s.world.caches, CacheName) == Named(w.caches, CacheName)[EntityId(s.out.value.id.value) := Item(s.out.value)] - {CacheKeyAll}
    ensures KeepsOthers(w.caches, s.world.caches, CacheName)
  {
    if request.id.None? then Step(Failure(MissingId), w)
    else
      var (found, repo) := Repository.FindByIdOp(w.repo, request.id.value);
      if found.None? then Step(Failure(NotFound(NotFoundMessage(request.id.value))), World(repo, w.caches))
      else
        var (saved, repo') := Repository.SaveOp(repo, mp.copy(found.value, request));
        PutResultEvictAll(repo', w.caches, mp.toResponse(saved))
  }

  /** `@CacheEvict(key = "#id")` and `@CacheEvict(key = "'all'")` after the delete. */
  function Delete(w: World, id: Id): (s: Step<()>)
    ensures s.out.Success? && s.world.repo == Repository.DeleteByIdOp(w.repo, id)
    ensures Named(s.world.caches, CacheName) == Named(w.caches, CacheName) - {EntityId(id), CacheKeyAll}
    ensures KeepsOthers(w.caches, s.world.caches, CacheName)
  {
    var repo := Repository.DeleteByIdOp(w.repo, id);
    var caches := CacheEvict(CacheEvict(w.caches, CacheName, EntityId(id)), CacheName, CacheKeyAll);
    Step(Success(()), World(repo, caches))
  }

  /** `@CacheEvict(allEntries = true)` around an empty method. */
  function ClearCache(w: World): Step<()> {
    ClearAllEntries(w, CacheName)
  }
}

=== FILE: declared_caching.dfy ===
/** The effects the caching annotations declare, on a healthy backend. A
    `RedisCacheManager` creates a named cache on first use, so a cache name
    without an entry reads as an empty cache. */
module DeclaredCaching {
  import opened Wrappers
  import opened Values
  import opened NamedCaches
  import opened ServiceState

  /** Every named cache other than `cacheName` is still there, unchanged. */
  predicate KeepsOthers(before: Manager, after: Manager, cacheName: string) {
    forall n | n in before && n != cacheName :: n in after && after[n] == before[n]
  }

  function Named(m: Manager, cacheName: string): (c: NamedCache)
    ensures cacheName in m ==> c == m[cacheName]
    ensures cacheName !in m ==> c == map[]
  {
    if cacheName in m then m[cacheName] else map[]
  }

  /** The lookup `@Cacheable` makes before the method runs. */
  function Cached(m: Manager, cacheName: string, key: Key): (r: Option<Value>)
    ensures r.Some? <==> key in Named(m, cacheName)
    ensures r.Some? ==> r.value == Named(m, cacheName)[key]
  {
    var c := Named(m, cacheName);
    if key in c then Some(c[key]) else None
  }

  /** The put of a `@Cacheable` miss or of a `@CachePut`. */
  function CachePut(m: Manager, cacheName: string, key: Key, v: Value): (r: Manager)
    ensures r.Keys == m.Keys + {cacheName}
    ensures r[cacheName] == Named(m, cacheName)[key := v]
    ensures forall n | n in m && n != cacheName :: r[n] == m[n]
  {
    m[cacheName := Named(m, cacheName)[key := v]]
  }

  /** `@CacheEvict` of one key. */
  function CacheEvict(m: Manager, cacheName: string, key: Key): (r: Manager)
    ensures r.Keys == m.Keys + {cacheName}
    ensures r[cacheName] == Named(m, cacheName) - {key}
    ensures forall n | n in m && n != cacheName :: r[n] == m[n]
  {
    m[cacheName := Named(m, cacheName) - {key}]
  }

  /** `@CacheEvict(allEntries = true)`. */
  function CacheEvictAllEntries(m: Manager, cacheName: string): (r: Manager)
    ensures r.Keys == m.Keys + {cacheName}
    ensures r[cacheName] == map[]
    ensures forall n | n in m && n != cacheName :: r[n] == m[n]
  {
    m[cacheName := map[]]
  }

  /** A method whose only effect is `@CacheEvict(allEntries = true)`: the
      store is left alone, the named cache is emptied and no other cache
      changes. */
  function ClearAllEntries(w: World, cacheName: string): (s: Step<()>)
    ensures s.out.Success? && s.world.repo == w.repo
    ensures Named(s.world.caches, cacheName) == map[]
    ensures KeepsOthers(w.caches, s.world.caches, cacheName)
  {
    Step(Success(()), w.(caches := CacheEvictAllEntries(w.caches, cacheName)))
  }
}

=== FILE: entity_cache.dfy ===
/** The entity cache wrappers `CategoryCache`, `ProductCache` and
    `PersonCache`. Each fixes a cache name and the `"all"` sentinel and works on
    the named cache it obtains from the `CacheManager`. Obtaining the cache may
    fail or yield null, and any operation on it may throw. Every such failure
    is caught and ends as a miss or a no-op: the `Outcome` argument says
    whether the backend call succeeded. */
module EntityCache {
  import opened Wrappers
  import opened Values
  import opened NamedCaches
  import SpringAdapter

  /** What distinguishes the three wrappers: the cache name, the class of the
      objects cached by id, and whether `clearAllEntries` exists (it does not
      for persons). */
  datatype Wrapper = Wrapper(cacheName: string, itemClass: Class, canClear: bool)

  const CategoryCache: Wrapper := Wrapper("categories", CategoryResponse, true)
  const ProductCache: Wrapper := Wrapper("products", ProductResponse, true)
  const PersonCache: Wrapper := Wrapper("persons", PersonResponse, false)

  /** The time-to-live `PersonCache` documents for its entries, in minutes. The
      backend enforces it; this model has no clock. */
  const PersonTtlMinutes: nat := 10

  /** Everything outside the wrapper's own named cache is as it was. */
  predicate OnlyOwnCache(w: Wrapper, before: Manager, after: Manager) {
    && after.Keys == before.Keys
    && forall n | n in before && n != w.cacheName :: after[n] == before[n]
  }

  function GetAll(w: Wrapper, m: Manager, oc: Outcome): (r: Option<seq<Obj>>)
    ensures oc.Fail? || w.cacheName !in m ==> r == None
    ensures r.Some? <==> oc.Ok? && w.cacheName in m && All in m[w.cacheName] && m[w.cacheName][All].List?
    ensures r.Some? ==> m[w.cacheName][All] == List(r.value)
  {
    if oc.Fail? || w.cacheName !in m then None
    else
      match TypedGet(m[w.cacheName], All, ListType)
      case Hit(v) => Some(v.objs)
      case Miss => None
      case WrongType => None
  }

  function PutAll(w: Wrapper, m: Manager, objs: seq<Obj>, oc: Outcome): (r: Manager)
    ensures OnlyOwnCache(w, m, r)
    ensures oc.Fail? || w.cacheName !in m ==> r == m
    ensures oc.Ok? && w.cacheName in m ==> r[w.cacheName] == m[w.cacheName][All := List(objs)]
  {
    if oc.Fail? || w.cacheName !in m then m
    else m[w.cacheName := m[w.cacheName][All := List(objs)]]
  }

  function EvictAll(w: Wrapper, m: Manager, oc: Outcome): (r: Manager)
    ensures OnlyOwnCache(w, m, r)
    ensures oc.Fail? || w.cacheName !in m ==> r == m
    ensures oc.Ok? && w.cacheName in m ==> r[w.cacheName] == m[w.cacheName] - {All}
  {
    if oc.Fail? || w.cacheName !in m then m
    else m[w.cacheName := m[w.cacheName] - {All}]
  }

  function GetById(w: Wrapper, m: Manager, id: Id, oc: Outcome): (r: Option<Obj>)
    ensures oc.Fail? || w.cacheName !in m ==> r == None
    ensures r.Some? <==>
      oc.Ok? && w.cacheName in m && EntityId(id) in m[w.cacheName]
      && IsInstance(m[w.cacheName][EntityId(id)], ItemOf(w.itemClass))
    ensures r.Some? ==> m[w.cacheName][EntityId(id)] == Item(r.value) && r.value.cls == w.itemClass
  {
    if oc.Fail? || w.cacheName !in m then None
    else
      match TypedGet(m[w.cacheName], EntityId(id), ItemOf(w.itemClass))
      case Hit(v) => Some(v.obj)
      case Miss => None
      case WrongType => None
  }

  /** Stores `x` under its own id; a null object or a null id is ignored. */
  function Put(w: Wrapper, m: Manager, x: Option<Obj>, oc: Outcome): (r: Manager)
    ensures OnlyOwnCache(w, m, r)
    ensures x.None? || x.value.id.None? || oc.Fail? || w.cacheName !in m ==> r == m
    ensures x.Some? && x.value.id.Some? && oc.Ok? && w.cacheName in m ==>
      r[w.cacheName] == m[w.cacheName][EntityId(x.value.id.value) := Item(x.value)]
  {
    if x.None? || x.value.id.None? then m
    else if oc.Fail? || w.cacheName !in m then m
    else m[w.cacheName := m[w.cacheName][EntityId(x.value.id.value) := Item(x.value)]]
  }

  function EvictById(w: Wrapper, m: Manager, id: Id, oc: Outcome): (r: Manager)
    ensures OnlyOwnCache(w, m, r)
    ensures oc.Fail? || w.cacheName !in m ==> r == m
    ensures oc.Ok? && w.cacheName in m ==> r[w.cacheName] == m[w.cacheName] - {EntityId(id)}
  {
    if oc.Fail? || w.cacheName !in m then m
    else m[w.cacheName := m[w.cacheName] - {EntityId(id)}]
  }

  function ClearAllEntries(w: Wrapper, m: Manager, oc: Outcome): (r: Manager)
    requires w.canClear
    ensures OnlyOwnCache(w, m, r)
    ensures oc.Fail? || w.cacheName !in m ==> r == m
    ensures oc.Ok? && w.cacheName in m ==> r[w.cacheName] == map[]
  {
    if oc.Fail? || w.cacheName !in m then m
    else m[w.cacheName := map[]]
  }

  /** Each wrapper operation is the corresponding cache-port operation of the
      Spring adapter on the wrapper's cache name, with `"all"` or the id as key. */
  lemma WrapperIsPortFacade(w: Wrapper, m: Manager, id: Id, x: Obj, objs: seq<Obj>, oc: Outcome)
    ensures GetAll(w, m, oc) == SpringAdapter.GetList(m, w.cacheName, All, oc)
    ensures PutAll(w, m, objs, oc) == SpringAdapter.Put(m, w.cacheName, All, List(objs), oc)
    ensures EvictAll(w, m, oc) == SpringAdapter.Evict(m, w.cacheName, All, oc)
    ensures var g := SpringAdapter.Get(m, w.cacheName, EntityId(id), ItemOf(w.itemClass), oc);
      GetById(w, m, id, oc) == if g.Some? then Some(g.value.obj) else None
    ensures x.id.Some? ==> Put(w, m, Some(x), oc) == SpringAdapter.Put(m, w.cacheName, EntityId(x.id.value), Item(x), oc)
    ensures EvictById(w, m, id, oc) == SpringAdapter.Evict(m, w.cacheName, EntityId(id), oc)
    ensures w.canClear ==> ClearAllEntries(w, m, oc) == SpringAdapter.Clear(m, w.cacheName, oc)
  {
  }

  /** The collection entry and the entity entries are independent: evicting
      `"all"` leaves every id readable as before, and evicting an id leaves the
      collection readable as before. */
  lemma AllAndIdEntriesIndependent(w: Wrapper, m: Manager, id: Id, other: Id, oc: Outcome, readOc: Outcome)
    ensures GetById(w, EvictAll(w, m, oc), other, readOc) == GetById(w, m, other, readOc)
    ensures GetAll(w, EvictById(w, m, id, oc), readOc) == GetAll(w, m, readOc)
    ensures other != id ==> GetById(w, EvictById(w, m, id, oc), other, readOc) == GetById(w, m, other, readOc)
  {
  }

  /** `putAll` then `getAll` returns the list written, when the named cache exists. */
  lemma PutAllThenGetAll(w: Wrapper, m: Manager, objs: seq<Obj>)
    requires w.cacheName in m
    ensures GetAll(w, PutAll(w, m, objs, Ok), Ok) == Some(objs)
  {
  }

  /** `put` then `getById` of its id returns the object written, when it has
      the wrapper's class and the named cache exists. */
  lemma PutThenGetById(w: Wrapper, m: Manager, x: Obj)
    requires w.cacheName in m && x.id.Some? && x.cls == w.itemClass
    ensures GetById(w, Put(w, m, Some(x), Ok), x.id.value, Ok) == Some(x)
  {
  }

  /** Without its named cache, or when the backend fails, a wrapper reads
      nothing and writes nothing. */
  lemma UnavailableCacheDegrades(w: Wrapper, m: Manager, id: Id, x: Option<Obj>, objs: seq<Obj>, oc: Outcome)
    requires w.cacheName !in m || oc.Fail?
    ensures GetAll(w, m, oc) == None && GetById(w, m, id, oc) == None
    ensures PutAll(w, m, objs, oc) == m && EvictAll(w, m, oc) == m
    ensures Put(w, m, x, oc) == m && EvictById(w, m, id, oc) == m
    ensures w.canClear ==> ClearAllEntries(w, m, oc) == m
  {
  }

  /** `clearAllEntries` makes every read of its cache miss and changes no
      other named cache. */
  lemma ClearAllEntriesMissesEverything(w: Wrapper, m: Manager, id: Id, readOc: Outcome)
    requires w.canClear
    ensures GetAll(w, ClearAllEntries(w, m, Ok), readOc) == None
    ensures GetById(w, ClearAllEntries(w, m, Ok), id, readOc) == None
  {
  }

  /** Clearing the categories cache leaves the products cache as it was. */
  lemma CategoryClearKeepsProducts(m: Manager, oc: Outcome, id: Id, readOc: Outcome)
    ensures GetById(ProductCache, ClearAllEntries(CategoryCache, m, oc), id, readOc) == GetById(ProductCache, m, id, readOc)
    ensures GetAll(ProductCache, ClearAllEntries(CategoryCache, m, oc), readOc) == GetAll(ProductCache, m, readOc)
  {
  }
}

=== FILE: manual_coherence.dfy ===
/** What the manual services' caching promises: every entry of the entity
    cache is the response of what the store holds, so reads answer what the
    store holds even though they may skip it. Writes keep that on a healthy
    backend; because the wrappers swallow backend failures, a failed write to
    the cache can leave a stale entry that later reads serve. */
module ManualCoherence {
  import opened Wrappers
  import opened Values
  import opened NamedCaches
  import opened ServiceState
  import opened Mapping
  import Repository
  import EC = EntityCache
  import CategoryManual = CategoryManualService
  import ProductManual = ProductManualService

  /** Every entry of the wrapper's cache is the response of what the store
      holds under its key. */
  ghost predicate Mirrors(w: EC.Wrapper, caches: Manager, repo: Repository.Repo, mp: Mapper) {
    w.cacheName in caches ==>
      && (All in caches[w.cacheName] ==> caches[w.cacheName][All] == List(ToResponseList(mp, Repository.Listing(repo))))
      && (forall id | EntityId(id) in caches[w.cacheName] ::
            id in repo.rows && caches[w.cacheName][EntityId(id)] == Item(mp.toResponse(repo.rows[id])))
  }

  /** The store is consistent, the mapper answers responses of the wrapper's
      class that keep the entity's id, and the cache mirrors the store. */
  ghost predicate Coherent(w: EC.Wrapper, world: World, mp: Mapper) {
    && Repository.Valid(world.repo)
    && KeepsId(mp)
    && Produces(mp, w.itemClass)
    && Mirrors(w, world.caches, world.repo, mp)
  }

  /** Mirroring depends on the rows only, not on the call log. */
  lemma MirrorsIgnoresLog(w: EC.Wrapper, caches: Manager, repo: Repository.Repo, mp: Mapper, log: seq<Repository.Call>)
    requires Mirrors(w, caches, repo, mp)
    ensures Mirrors(w, caches, repo.(log := log), mp)
  {
    assert Repository.Listing(repo.(log := log)) == Repository.Listing(repo);
  }

  /** An entity cache without the collection entry and without any entry for
      ids whose rows changed still mirrors the changed store. */
  lemma MirrorsAfterRowChange(w: EC.Wrapper, caches: Manager, before: Repository.Repo, after: Repository.Repo, mp: Mapper, changed: set<Id>)
    requires Mirrors(w, caches, before, mp)
    requires w.cacheName in caches ==> All !in caches[w.cacheName]
    requires w.cacheName in caches ==> forall id | id in changed :: EntityId(id) !in caches[w.cacheName]
    requires forall id | id in before.rows && id !in changed :: id in after.rows && after.rows[id] == before.rows[id]
    ensures Mirrors(w, caches, after, mp)
  {
  }

  /** Writing the response of row `i` through and evicting the collection
      entry keeps a mirror of a store in which only row `i` changed. */
  lemma MirrorsAfterWriteThrough(w: EC.Wrapper, caches: Manager, before: Repository.Repo, after: Repository.Repo, mp: Mapper, i: Id)
    requires Mirrors(w, caches, before, mp) && w.cacheName in caches && i in after.rows
    requires forall id | id in before.rows && id != i :: id in after.rows && after.rows[id] == before.rows[id]
    ensures Mirrors(w, caches[w.cacheName := caches[w.cacheName][EntityId(i) := Item(mp.toResponse(after.rows[i]))] - {All}], after, mp)
  {
    var c := caches[w.cacheName][EntityId(i) := Item(mp.toResponse(after.rows[i]))] - {All};
    forall id | EntityId(id) in c
      ensures id in after.rows && c[EntityId(id)] == Item(mp.toResponse(after.rows[id]))
    {
      if id != i {
        assert EntityId(id) in caches[w.cacheName];
      }
    }
  }

  // ---- CategoryManualService

  /** Whatever the backend does, a coherent cache makes `getAll` answer the
      store's listing. */
  lemma CategoryGetAllTellsTruth(world: World, mp: Mapper, readOc: Outcome, writeOc: Outcome)
    requires Coherent(CategoryManual.Cache, world, mp)
    ensures CategoryManual.GetAll(world, mp, readOc, writeOc).out == Success(ToResponseList(mp, Repository.Listing(world.repo)))
    ensures Coherent(CategoryManual.Cache, CategoryManual.GetAll(world, mp, readOc, writeOc).world, mp)
  {
    Repository.OperationsPreserveValid(world.repo, Obj(Category, None, map[]), 0);
    MirrorsIgnoresLog(CategoryManual.Cache, world.caches, world.repo, mp, world.repo.log + [Repository.FindAll]);
  }

  /** Whatever the backend does, a coherent cache makes `getById` answer the
      stored category's response, or not-found for an unknown id. */
  lemma CategoryGetByIdTellsTruth(world: World, mp: Mapper, id: Id, readOc: Outcome, writeOc: Outcome)
    requires Coherent(CategoryManual.Cache, world, mp)
    ensures id in world.repo.rows ==>
      CategoryManual.GetById(world, mp, id, readOc, writeOc).out == Success(mp.toResponse(world.repo.rows[id]))
    ensures id !in world.repo.rows ==>
      CategoryManual.GetById(world, mp, id, readOc, writeOc).out == Failure(NotFound(CategoryManual.NotFoundMessage(id)))
    ensures Coherent(CategoryManual.Cache, CategoryManual.GetById(world, mp, id, readOc, writeOc).world, mp)
  {
    CategoryGetByIdKeepsCoherent(world, mp, id, readOc, writeOc);
    if id in world.repo.rows && CategoryManual.Cache.cacheName in world.caches && EntityId(id) in world.caches[CategoryManual.Cache.cacheName] {
      assert world.caches[CategoryManual.Cache.cacheName][EntityId(id)] == Item(mp.toResponse(world.repo.rows[id]));
    }
  }

  lemma CategoryGetByIdKeepsCoherent(world: World, mp: Mapper, id: Id, readOc: Outcome, writeOc: Outcome)
    requires Coherent(CategoryManual.Cache, world, mp)
    ensures Coherent(CategoryManual.Cache, CategoryManual.GetById(world, mp, id, readOc, writeOc).world, mp)
  {
    Repository.OperationsPreserveValid(world.repo, Obj(Category, None, map[]), id);
    MirrorsIgnoresLog(CategoryManual.Cache, world.caches, world.repo, mp, world.repo.log + [Repository.FindById(id)]);
    if id in world.repo.rows {
      assert world.repo.rows[id].id == Some(id);
    }
  }

  lemma CategoryCreateKeepsCoherent(world: World, mp: Mapper, request: Request)
    requires Coherent(CategoryManual.Cache, world, mp)
    ensures Coherent(CategoryManual.Cache, CategoryManual.Create(world, mp, request, Ok, Ok).world, mp)
  {
    var x := mp.toEntity(request);
    Repository.OperationsPreserveValid(world.repo, x, 0);
    var (saved, repo) := Repository.SaveOp(world.repo, x);
    assert mp.toResponse(saved).id == saved.id;
  }

  /** On a healthy backend, updating a stored category saves the copied row,
      writes its response through and evicts the collection entry. */
  lemma CategoryUpdateFoundWorld(world: World, mp: Mapper, request: Request)
    requires KeepsId(mp)
    requires request.id.Some? && request.id.value in world.repo.rows
    requires CategoryManual.Cache.cacheName in world.caches
    ensures var found := world.repo.(log := world.repo.log + [Repository.FindById(request.id.value)]);
      var (saved, repo) := Repository.SaveOp(found, mp.copy(world.repo.rows[request.id.value], request));
      var c := world.caches[CategoryManual.Cache.cacheName];
      CategoryManual.Update(world, mp, request, Ok, Ok).world
        == World(repo, world.caches[CategoryManual.Cache.cacheName := c[EntityId(saved.id.value) := Item(mp.toResponse(repo.rows[saved.id.value]))] - {All}])
  {
    var found := world.repo.(log := world.repo.log + [Repository.FindById(request.id.value)]);
    var saved := Repository.SaveOp(found, mp.copy(world.repo.rows[request.id.value], request)).0;
    assert mp.toResponse(saved).id == saved.id;
  }

  lemma CategoryUpdateFoundKeepsCoherent(world: World, mp: Mapper, request: Request)
    requires Coherent(CategoryManual.Cache, world, mp)
    requires request.id.Some? && request.id.value in world.repo.rows
    ensures Coherent(CategoryManual.Cache, CategoryManual.Update(world, mp, request, Ok, Ok).world, mp)
  {
    var id := request.id.value;
    var found := world.repo.(log := world.repo.log + [Repository.FindById(id)]);
    var x := mp.copy(world.repo.rows[id], request);
    Repository.OperationsPreserveValid(world.repo, x, id);
    Repository.OperationsPreserveValid(found, x, id);
    MirrorsIgnoresLog(CategoryManual.Cache, world.caches, world.repo, mp, found.log);
    var (saved, repo) := Repository.SaveOp(found, x);
    if CategoryManual.Cache.cacheName in world.caches {
      CategoryUpdateFoundWorld(world, mp, request);
      MirrorsAfterWriteThrough(CategoryManual.Cache, world.caches, found, repo, mp, saved.id.value);
    }
  }

  lemma CategoryUpdateKeepsCoherent(world: World, mp: Mapper, request: Request)
    requires Coherent(CategoryManual.Cache, world, mp)
    ensures Coherent(CategoryManual.Cache, CategoryManual.Update(world, mp, request, Ok, Ok).world, mp)
  {
    if request.id.Some? {
      var id := request.id.value;
      if id in world.repo.rows {
        CategoryUpdateFoundKeepsCoherent(world, mp, request);
      } else {
        Repository.OperationsPreserveValid(world.repo, Obj(Category, None, map[]), id);
        MirrorsIgnoresLog(CategoryManual.Cache, world.caches, world.repo, mp, Repository.FindByIdOp(world.repo, id).1.log);
      }
    }
  }

  lemma CategoryDeleteKeepsCoherent(world: World, mp: Mapper, id: Id)
    requires Coherent(CategoryManual.Cache, world, mp)
    ensures Coherent(CategoryManual.Cache, CategoryManual.Delete(world, id, Ok, Ok).world, mp)
  {
    Repository.OperationsPreserveValid(world.repo, Obj(Category, None, map[]), id);
    var s := CategoryManual.Delete(world, id, Ok, Ok);
    MirrorsAfterRowChange(CategoryManual.Cache, s.world.caches, world.repo, s.world.repo, mp, {id});
  }

  lemma CategoryClearCacheKeepsCoherent(world: World, mp: Mapper, oc: Outcome)
    requires Coherent(CategoryManual.Cache, world, mp)
    ensures Coherent(CategoryManual.Cache, CategoryManual.ClearCache(world, oc).world, mp)
  {
  }

  /** The wrappers swallow a failed put: after an update whose write-through
      failed, the old response stays cached and `getById` keeps serving it
      although the store holds the new one. */
  lemma CategoryFailedPutServesStale(world: World, mp: Mapper, request: Request)
    requires Coherent(CategoryManual.Cache, world, mp)
    requires request.id.Some? && request.id.value in world.repo.rows
    requires CategoryManual.Cache.cacheName in world.caches
    requires EntityId(request.id.value) in world.caches[CategoryManual.Cache.cacheName]
    requires mp.copy(world.repo.rows[request.id.value], request).id == request.id
    requires mp.toResponse(mp.copy(world.repo.rows[request.id.value], request)) != mp.toResponse(world.repo.rows[request.id.value])
    ensures var s := CategoryManual.Update(world, mp, request, Fail, Ok);
      var id := request.id.value;
      && s.out.Success?
      && id in s.world.repo.rows
      && CategoryManual.GetById(s.world, mp, id, Ok, Ok).out == Success(mp.toResponse(world.repo.rows[id]))
      && CategoryManual.GetById(s.world, mp, id, Ok, Ok).out != Success(mp.toResponse(s.world.repo.rows[id]))
  {
    var id := request.id.value;
    var prior := world.repo.rows[id];
    assert prior.id == Some(id);
    var x := mp.copy(prior, request);
    var found := Repository.FindByIdOp(world.repo, id).1;
    var saved := Repository.SaveOp(found, x).0;
    assert world.caches[CategoryManual.Cache.cacheName][EntityId(id)] == Item(mp.toResponse(prior));
    assert mp.toResponse(prior).cls == CategoryResponse;
  }

  // ---- ProductManualService

  lemma ProductGetAllTellsTruth(world: World, mp: Mapper, readOc: Outcome, writeOc: Outcome)
    requires Coherent(ProductManual.Cache, world, mp)
    ensures ProductManual.GetAll(world, mp, readOc, writeOc).out == Success(ToResponseList(mp, Repository.Listing(world.repo)))
    ensures Coherent(ProductManual.Cache, ProductManual.GetAll(world, mp, readOc, writeOc).world, mp)
  {
    Repository.OperationsPreserveValid(world.repo, Obj(Product, None, map[]), 0);
    MirrorsIgnoresLog(ProductManual.Cache, world.caches, world.repo, mp, world.repo.log + [Repository.FindAll]);
  }

  lemma ProductGetByIdTellsTruth(world: World, mp: Mapper, id: Id, readOc: Outcome, writeOc: Outcome)
    requires Coherent(ProductManual.Cache, world, mp)
    ensures id in world.repo.rows ==>
      ProductManual.GetById(world, mp, id, readOc, writeOc).out == Success(mp.toResponse(world.repo.rows[id]))
    ensures id !in world.repo.rows ==>
      ProductManual.GetById(world, mp, id, readOc, writeOc).out == Failure(NotFound(ProductManual.NotFoundMessage(id)))
    ensures Coherent(ProductManual.Cache, ProductManual.GetById(world, mp, id, readOc, writeOc).world, mp)
  {
    ProductGetByIdKeepsCoherent(world, mp, id, readOc, writeOc);
    if id in world.repo.rows && ProductManual.Cache.cacheName in world.caches && EntityId(id) in world.caches[ProductManual.Cache.cacheName] {
      assert world.caches[ProductManual.Cache.cacheName][EntityId(id)] == Item(mp.toResponse(world.repo.rows[id]));
    }
  }

  lemma ProductGetByIdKeepsCoherent(world: World, mp: Mapper, id: Id, readOc: Outcome, writeOc: Outcome)
    requires Coherent(ProductManual.Cache, world, mp)
    ensures Coherent(ProductManual.Cache, ProductManual.GetById(world, mp, id, readOc, writeOc).world, mp)
  {
    Repository.OperationsPreserveValid(world.repo, Obj(Product, None, map[]), id);
    MirrorsIgnoresLog(ProductManual.Cache, world.caches, world.repo, mp, world.repo.log + [Repository.FindById(id)]);
    if id in world.repo.rows {
      assert world.repo.rows[id].id == Some(id);
    }
  }

  /** `create` only evicts the collection entry, which suffices because the
      request's id is ignored when it is read, so the new row takes a fresh id
      that no entry can name. */
  lemma ProductCreateKeepsCoherent(world: World, mp: Mapper, request: Request)
    requires Coherent(ProductManual.Cache, world, mp)
    requires mp.toEntity(request).id.None?
    ensures Coherent(ProductManual.Cache, ProductManual.Create(world, mp, request, Ok).world, mp)
  {
    var x := mp.toEntity(request);
    Repository.OperationsPreserveValid(world.repo, x, 0);
    var s := ProductManual.Create(world, mp, request, Ok);
    var newId := world.repo.nextId;
    assert newId !in world.repo.rows;
    MirrorsIgnoresLog(ProductManual.Cache, world.caches, world.repo, mp, s.world.repo.log);
    MirrorsAfterRowChange(ProductManual.Cache, s.world.caches, world.repo, s.world.repo, mp, {newId});
  }

  /** Without that, an entity mapped with the id of a cached product
      overwrites it and the cache keeps serving the old response. */
  lemma ProductCreateWithIdServesStale(world: World, mp: Mapper, request: Request)
    requires Coherent(ProductManual.Cache, world, mp)
    requires ProductManual.Cache.cacheName in world.caches
    requires mp.toEntity(request).id.Some?
    requires EntityId(mp.toEntity(request).id.value) in world.caches[ProductManual.Cache.cacheName]
    requires mp.toResponse(mp.toEntity(request)) != mp.toResponse(world.repo.rows[mp.toEntity(request).id.value])
    ensures var s := ProductManual.Create(world, mp, request, Ok);
      var id := mp.toEntity(request).id.value;
      && id in s.world.repo.rows
      && ProductManual.GetById(s.world, mp, id, Ok, Ok).out != Success(mp.toResponse(s.world.repo.rows[id]))
  {
    var id := mp.toEntity(request).id.value;
    var c := world.caches[ProductManual.Cache.cacheName];
    assert c[EntityId(id)] == Item(mp.toResponse(world.repo.rows[id]));
    assert mp.toResponse(world.repo.rows[id]).cls == ProductResponse;
  }

  lemma ProductUpdateFoundKeepsCoherent(world: World, mp: Mapper, request: Request)
    requires Coherent(ProductManual.Cache, world, mp)
    requires request.id.Some? && request.id.value in world.repo.rows
    ensures Coherent(ProductManual.Cache, ProductManual.Update(world, mp, request, Ok, Ok).world, mp)
  {
    var id := request.id.value;
    var found := Repository.FindByIdOp(world.repo, id).1;
    Repository.OperationsPreserveValid(world.repo, Obj(Product, None, map[]), id);
    MirrorsIgnoresLog(ProductManual.Cache, world.caches, world.repo, mp, found.log);
    var x := mp.copy(world.repo.rows[id], request);
    Repository.OperationsPreserveValid(found, x, id);
    var (saved, repo) := Repository.SaveOp(found, x);
    assert mp.toResponse(saved).id == saved.id;
    var s := ProductManual.Update(world, mp, request, Ok, Ok);
    MirrorsAfterRowChange(ProductManual.Cache, s.world.caches, found, s.world.repo, mp, {saved.id.value});
  }

  lemma ProductUpdateKeepsCoherent(world: World, mp: Mapper, request: Request)
    requires Coherent(ProductManual.Cache, world, mp)
    ensures Coherent(ProductManual.Cache, ProductManual.Update(world, mp, request, Ok, Ok).world, mp)
  {
    if request.id.Some? {
      var id := request.id.value;
      if id in world.repo.rows {
        ProductUpdateFoundKeepsCoherent(world, mp, request);
      } else {
        Repository.OperationsPreserveValid(world.repo, Obj(Product, None, map[]), id);
        MirrorsIgnoresLog(ProductManual.Cache, world.caches, world.repo, mp, Repository.FindByIdOp(world.repo, id).1.log);
      }
    }
  }

  lemma ProductDeleteKeepsCoherent(world: World, mp: Mapper, id: Id)
    requires Coherent(ProductManual.Cache, world, mp)
    ensures Coherent(ProductManual.Cache, ProductManual.Delete(world, id, Ok, Ok).world, mp)
  {
    Repository.OperationsPreserveValid(world.repo, Obj(Product, None, map[]), id);
    var s := ProductManual.Delete(world, id, Ok, Ok);
    MirrorsAfterRowChange(ProductManual.Cache, s.world.caches, world.repo, s.world.repo, mp, {id});
  }

  lemma ProductClearCacheKeepsCoherent(world: World, mp: Mapper, oc: Outcome)
    requires Coherent(ProductManual.Cache, world, mp)
    ensures Coherent(ProductManual.Cache, ProductManual.ClearCache(world, oc).world, mp)
  {
  }
}

=== FILE: mapping.dfy ===
/** The request DTOs and the mappers between requests, entities and
    responses. The mappers copy properties by reflection, so they are left
    abstract: a `Mapper` is any three total functions. What the services need
    of them is stated as predicates, never assumed. */
module Mapping {
  import opened Wrappers
  import opened Values

  /** A request body: a nullable id and the other properties. */
  datatype Request = Request(id: Option<Id>, props: map<string, string>)

  /** `toEntity`, `toResponse` and `copy(destination, source)`. */
  datatype Mapper = Mapper(
    toEntity: Request -> Obj,
    toResponse: Obj -> Obj,
    copy: (Obj, Request) -> Obj)

  /** `toResponse` carries the id over. */
  ghost predicate KeepsId(mp: Mapper) {
    forall x :: mp.toResponse(x).id == x.id
  }

  /** `toResponse` yields objects of class `cls`. */
  ghost predicate Produces(mp: Mapper, cls: Class) {
    forall x :: mp.toResponse(x).cls == cls
  }

  /** `toResponseList`: `toResponse` applied to each element, in order. */
  function ToResponseList(mp: Mapper, xs: seq<Obj>): (r: seq<Obj>)
    ensures |r| == |xs|
    ensures forall p | 0 <= p < |xs| :: r[p] == mp.toResponse(xs[p])
  {
    if xs == [] then [] else [mp.toResponse(xs[0])] + ToResponseList(mp, xs[1..])
  }

  /** `toResponseList` distributes over concatenation. */
  lemma {:induction false} ToResponseListAppend(mp: Mapper, xs: seq<Obj>, ys: seq<Obj>)
    ensures ToResponseList(mp, xs + ys) == ToResponseList(mp, xs) + ToResponseList(mp, ys)
    decreases |xs|
  {
    if xs == [] {
      assert xs + ys == ys;
    } else {
      assert (xs + ys)[1..] == xs[1..] + ys;
      ToResponseListAppend(mp, xs[1..], ys);
    }
  }

  /** The setters an update applies: each listed property takes the source's
      value, or becomes null when the source has none; the rest is kept. */
  function CopyProps(dst: Obj, src: Obj, names: set<string>): (r: Obj)
    ensures r.cls == dst.cls && r.id == dst.id
    ensures forall n | n in names :: (n in r.props <==> n in src.props) && (n in src.props ==> r.props[n] == src.props[n])
    ensures forall n | n !in names :: (n in r.props <==> n in dst.props) && (n in dst.props ==> r.props[n] == dst.props[n])
  {
    var props := map n | n in (dst.props.Keys - names) + (src.props.Keys * names) ::
      if n in names then src.props[n] else dst.props[n];
    dst.(props := props)
  }

  /** Copying the same properties twice is copying them once. */
  lemma CopyPropsIdempotent(dst: Obj, src: Obj, names: set<string>)
    ensures CopyProps(CopyProps(dst, src, names), src, names) == CopyProps(dst, src, names)
  {
    var once := CopyProps(dst, src, names);
    assert CopyProps(once, src, names).props == once.props;
  }
}

=== FILE: named_caches.dfy ===
/** Spring's cache abstraction as the entity caches and the Spring adapter use
    it: a `CacheManager` hands out named caches, and a named cache maps keys to
    values without prefixing them. */
module NamedCaches {
  import opened Values

  /** One `org.springframework.cache.Cache`; null values are never stored. */
  type NamedCache = map<Key, Value>

  /** A `CacheManager`: `getCache(name)` returns null exactly when `name` is
      not one of its caches. */
  type Manager = map<string, NamedCache>

  /** The three answers of `Cache.get(key, type)`: no entry, the entry, or an
      `IllegalStateException` because the entry has another type. */
  datatype Lookup = Miss | Hit(value: Value) | WrongType

  function TypedGet(c: NamedCache, k: Key, t: ValueType): (r: Lookup)
    ensures r.Miss? <==> k !in c
    ensures r.Hit? <==> k in c && IsInstance(c[k], t)
    ensures r.Hit? ==> r.value == c[k]
  {
    if k !in c then Miss
    else if IsInstance(c[k], t) then Hit(c[k])
    else WrongType
  }

  /** Every entry of `c` has the shape the services store: a list under the
      `"all"` sentinel and an object of class `cls` under each id. */
  predicate WellTyped(c: NamedCache, cls: Class) {
    forall k | k in c ::
      (k == All ==> c[k].List?) && (k.EntityId? ==> c[k].Item? && c[k].obj.cls == cls)
  }
}

=== FILE: person_coherence.dfy ===
/** What `PersonService`'s caching promises: the `persons` cache only ever
    holds what the store holds, so a read from the cache is a read from the
    store. Every operation keeps that on a healthy backend; a failing cache
    write after a save breaks it; and `getAllPersons` as written answers an
    empty list when the cache manager has no `persons` cache. */
module PersonCoherence {
  import opened Wrappers
  import opened Values
  import opened NamedCaches
  import opened ServiceState
  import opened Mapping
  import Repository
  import opened PersonService

  /** Every entry of `c` is what the store holds under its key. */
  ghost predicate Mirrors(c: NamedCache, repo: Repository.Repo) {
    && (All in c ==> c[All] == List(Repository.Listing(repo)))
    && (forall id | EntityId(id) in c :: id in repo.rows && c[EntityId(id)] == Item(repo.rows[id]))
  }

  /** The store is consistent and holds persons, and the cache, if there is
      one, mirrors it. */
  ghost predicate Coherent(w: World) {
    && Repository.Valid(w.repo)
    && (forall i | i in w.repo.rows :: w.repo.rows[i].cls == Person)
    && (CacheName in w.caches ==> Mirrors(w.caches[CacheName], w.repo))
  }

  lemma EmptyIsCoherent(caches: Manager)
    requires forall n | n in caches :: caches[n] == map[]
    ensures Coherent(World(Repository.Empty, caches))
  {
    Repository.EmptyIsValid();
  }

  /** As written, a missing `persons` cache makes `getAllPersons` answer an
      empty list without asking the store, whatever the store holds. */
  lemma AbsentCacheHidesPersons(w: World, readOc: Outcome, writeOc: Outcome)
    requires CacheName !in w.caches
    requires Repository.Listing(w.repo) != []
    ensures GetAllPersons(w, readOc, writeOc) == Step(Success([]), w)
    ensures GetAllPersons(w, readOc, writeOc).out != Success(Repository.Listing(w.repo))
  {
  }

  /** A store with one person and a cache manager without a `persons` cache:
      the person exists but `getAllPersons` lists nobody. */
  lemma AbsentCacheHidesPersonsExample()
    ensures var p := Obj(Person, Some(1), map["name" := "Ana"]);
      var w := World(Repository.Repo(map[1 := p], [1], 2, []), map[]);
      && Coherent(w)
      && GetPersonById(w, 1, Ok, Ok).out == Success(p)
      && GetAllPersons(w, Ok, Ok).out == Success([])
  {
    var p := Obj(Person, Some(1), map["name" := "Ana"]);
    var repo := Repository.Repo(map[1 := p], [1], 2, []);
    assert [1][1..] == [];
    assert Repository.Distinct([1]) && Repository.Stored([1], repo.rows);
  }

  /** Corrected: with a coherent cache, a successful `getAllPersons` answers
      exactly the store's listing, whether or not the cache exists. */
  lemma FixedGetAllTellsTruth(w: World, readOc: Outcome, writeOc: Outcome)
    requires Coherent(w)
    ensures GetAllPersonsFixed(w, readOc, writeOc).out.Success? ==>
      GetAllPersonsFixed(w, readOc, writeOc).out.value == Repository.Listing(w.repo)
    ensures readOc.Ok? && writeOc.Ok? ==> GetAllPersonsFixed(w, readOc, writeOc).out == Success(Repository.Listing(w.repo))
  {
  }

  /** As written, the answer is still the truth whenever the cache exists. */
  lemma GetAllTellsTruthWhenConfigured(w: World, readOc: Outcome, writeOc: Outcome)
    requires Coherent(w) && CacheName in w.caches
    ensures GetAllPersons(w, readOc, writeOc).out.Success? ==>
      GetAllPersons(w, readOc, writeOc).out.value == Repository.Listing(w.repo)
  {
    FixedGetAllTellsTruth(w, readOc, writeOc);
  }

  /** With a coherent cache, `getPersonById` answers the stored person, and
      "Person not found" for an unknown id. */
  lemma GetPersonByIdTellsTruth(w: World, id: Id, readOc: Outcome, writeOc: Outcome)
    requires Coherent(w)
    ensures GetPersonById(w, id, readOc, writeOc).out.Success? ==>
      id in w.repo.rows && GetPersonById(w, id, readOc, writeOc).out.value == w.repo.rows[id]
    ensures readOc.Ok? && id !in w.repo.rows ==> GetPersonById(w, id, readOc, writeOc).out == Failure(NotFound(NotFoundMessage))
    ensures readOc.Ok? && writeOc.Ok? && id in w.repo.rows ==> GetPersonById(w, id, readOc, writeOc).out == Success(w.repo.rows[id])
  {
    if CacheName in w.caches && EntityId(id) in w.caches[CacheName] {
      assert w.caches[CacheName][EntityId(id)] == Item(w.repo.rows[id]);
    }
  }

  /** Mirroring depends on the rows and the listing order, not on the call log. */
  lemma MirrorsIgnoresLog(c: NamedCache, repo: Repository.Repo, log: seq<Repository.Call>)
    requires Mirrors(c, repo)
    ensures Mirrors(c, repo.(log := log))
  {
    assert Repository.Listing(repo.(log := log)) == Repository.Listing(repo);
  }

  /** Storing the listing under `all` keeps a mirror. */
  lemma MirrorsWithListing(c: NamedCache, repo: Repository.Repo)
    requires Mirrors(c, repo)
    ensures Mirrors(c[All := List(Repository.Listing(repo))], repo)
  {
    var c' := c[All := List(Repository.Listing(repo))];
    forall id | EntityId(id) in c'
      ensures id in repo.rows && c'[EntityId(id)] == Item(repo.rows[id])
    {
      assert EntityId(id) in c;
    }
  }

  /** Storing a stored row under its id keeps a mirror. */
  lemma MirrorsWithItem(c: NamedCache, repo: Repository.Repo, i: Id)
    requires Mirrors(c, repo) && i in repo.rows
    ensures Mirrors(c[EntityId(i) := Item(repo.rows[i])], repo)
  {
  }

  /** After the row `i` changed, a refreshed listing and a refreshed entry
      for `i` make the cache a mirror of the new store again. */
  lemma MirrorsRefreshed(c: NamedCache, before: Repository.Repo, after: Repository.Repo, i: Id)
    requires Mirrors(c, before) && i in after.rows
    requires forall id | id in before.rows && id != i :: id in after.rows && after.rows[id] == before.rows[id]
    ensures Mirrors(c[All := List(Repository.Listing(after))][EntityId(i) := Item(after.rows[i])], after)
  {
    var c' := c[All := List(Repository.Listing(after))][EntityId(i) := Item(after.rows[i])];
    forall id | EntityId(id) in c'
      ensures id in after.rows && c'[EntityId(id)] == Item(after.rows[id])
    {
      if id != i {
        assert EntityId(id) in c;
      }
    }
  }

  /** `getAllPersons`, as written and corrected, keeps the state coherent
      whatever the backend does. */
  lemma GetAllKeepsCoherent(w: World, readOc: Outcome, writeOc: Outcome)
    requires Coherent(w)
    ensures Coherent(GetAllPersons(w, readOc, writeOc).world)
    ensures Coherent(GetAllPersonsFixed(w, readOc, writeOc).world)
  {
    Repository.OperationsPreserveValid(w.repo, Obj(Person, None, map[]), 0);
    var listed := w.repo.(log := w.repo.log + [Repository.FindAll]);
    if CacheName in w.caches {
      var c := w.caches[CacheName];
      MirrorsIgnoresLog(c, w.repo, listed.log);
      MirrorsWithListing(c, listed);
      assert Repository.Listing(listed) == Repository.Listing(w.repo);
    }
  }

  /** `getPersonById` keeps the state coherent whatever the backend does. */
  lemma GetPersonByIdKeepsCoherent(w: World, id: Id, readOc: Outcome, writeOc: Outcome)
    requires Coherent(w)
    ensures Coherent(GetPersonById(w, id, readOc, writeOc).world)
  {
    Repository.OperationsPreserveValid(w.repo, Obj(Person, None, map[]), id);
    var found := w.repo.(log := w.repo.log + [Repository.FindById(id)]);
    if CacheName in w.caches {
      var c := w.caches[CacheName];
      MirrorsIgnoresLog(c, w.repo, found.log);
      if id in w.repo.rows {
        MirrorsWithItem(c, found, id);
      }
    }
  }

  /** A save of `x` followed by a successful refresh leaves a coherent state. */
  lemma RefreshKeepsCoherent(w: World, x: Obj)
    requires Coherent(w) && x.cls == Person
    ensures var (saved, repo) := Repository.SaveOp(w.repo, x);
      Coherent(RefreshAfterSave(World(repo, w.caches), saved, Ok, Ok).world)
  {
    var (saved, repo) := Repository.SaveOp(w.repo, x);
    Repository.OperationsPreserveValid(w.repo, x, 0);
    Repository.OperationsPreserveValid(repo, x, 0);
    var s := RefreshAfterSave(World(repo, w.caches), saved, Ok, Ok);
    if CacheName in w.caches {
      var c := w.caches[CacheName];
      var i := saved.id.value;
      var listed := repo.(log := repo.log + [Repository.FindAll]);
      assert Repository.Listing(listed) == Repository.Listing(repo);
      var refreshed := w.caches[CacheName := c[All := List(Repository.Listing(repo))]];
      assert UpdateAllPersonsCache(World(repo, w.caches), Ok) == Step(Success(()), World(listed, refreshed));
      assert s.world == World(listed, refreshed[CacheName := refreshed[CacheName][EntityId(i) := Item(saved)]]);
      MirrorsRefreshed(c, w.repo, listed, i);
    }
  }

  lemma CreateKeepsCoherent(w: World, person: Obj)
    requires Coherent(w) && person.cls == Person
    ensures Coherent(CreatePerson(w, person, Ok, Ok).world)
  {
    RefreshKeepsCoherent(w, person);
  }

  lemma UpdateKeepsCoherent(w: World, id: Id, person: Obj)
    requires Coherent(w)
    ensures Coherent(UpdatePerson(w, id, person, Ok, Ok, Ok, Ok).world)
  {
    GetPersonByIdKeepsCoherent(w, id, Ok, Ok);
    GetPersonByIdTellsTruth(w, id, Ok, Ok);
    var loaded := GetPersonById(w, id, Ok, Ok);
    if loaded.out.Success? {
      RefreshKeepsCoherent(loaded.world, CopyProps(loaded.out.value, person, UpdatedFields));
    }
  }

  lemma DeleteKeepsCoherent(w: World, id: Id)
    requires Coherent(w)
    ensures Coherent(DeletePerson(w, id, Ok, Ok).world)
  {
    var checked := Repository.ExistsByIdOp(w.repo, id).1;
    Repository.OperationsPreserveValid(w.repo, Obj(Person, None, map[]), id);
    Repository.OperationsPreserveValid(checked, Obj(Person, None, map[]), id);
    var s := DeletePerson(w, id, Ok, Ok);
    if CacheName in w.caches && id in w.repo.rows {
      var c := s.world.caches[CacheName];
      forall j | EntityId(j) in c
        ensures j in s.world.repo.rows && c[EntityId(j)] == Item(s.world.repo.rows[j])
      {
        assert EntityId(j) in w.caches[CacheName];
      }
    }
  }

  /** `getPersonById` fills the cache on a miss: from a coherent state, a
      second read of the same id makes no store call and answers the same. */
  lemma GetPersonByIdFillsCache(w: World, id: Id)
    requires Coherent(w) && CacheName in w.caches && id in w.repo.rows
    ensures var first := GetPersonById(w, id, Ok, Ok);
      && first.out == Success(w.repo.rows[id])
      && EntityId(id) in first.world.caches[CacheName]
      && GetPersonById(first.world, id, Ok, Ok) == first.(out := Success(w.repo.rows[id]))
  {
    GetPersonByIdTellsTruth(w, id, Ok, Ok);
    assert w.repo.rows[id].id == Some(id);
  }

  /** `createPerson` writes through: on a healthy backend, reading the new
      person and the listing right afterwards are both cache hits that answer
      the store's contents without a store call. */
  lemma CreateThenReadsHit(w: World, person: Obj)
    requires Coherent(w) && CacheName in w.caches && person.cls == Person
    ensures var created := CreatePerson(w, person, Ok, Ok);
      var i := created.out.value.id.value;
      && created.out.Success?
      && GetPersonById(created.world, i, Ok, Ok) == Step(created.out, created.world)
      && GetAllPersons(created.world, Ok, Ok) == Step(Success(Repository.Listing(created.world.repo)), created.world)
  {
    var (saved, repo) := Repository.SaveOp(w.repo, person);
    var created := CreatePerson(w, person, Ok, Ok);
    assert created.world.caches[CacheName][EntityId(saved.id.value)] == Item(saved);
    assert Repository.Listing(created.world.repo) == Repository.Listing(repo);
  }

  /** No transaction protects `createPerson`: when storing the new listing
      fails, the caller gets an exception, the person is saved anyway, and the
      cached listing no longer matches the store. */
  lemma FailedRefreshLeavesStaleListing(w: World, person: Obj)
    requires Coherent(w) && person.cls == Person && person.id.None?
    requires CacheName in w.caches && All in w.caches[CacheName]
    ensures var s := CreatePerson(w, person, Fail, Ok);
      && s.out == Failure(CacheFailure)
      && s.world.repo.rows == Repository.SaveOp(w.repo, person).1.rows
      && !Coherent(s.world)
  {
    var (saved, repo) := Repository.SaveOp(w.repo, person);
    Repository.InsertAppendsToListing(w.repo, person);
    var s := CreatePerson(w, person, Fail, Ok);
    assert s.world.caches[CacheName][All] == List(Repository.Listing(w.repo));
    assert |Repository.Listing(s.world.repo)| == |Repository.Listing(w.repo)| + 1;
  }
}

=== FILE: person_service.dfy ===
/** `PersonService`: caching written by hand against the `persons` cache of the
    `CacheManager`, with no exception handling. It caches the entities. A
    missing cache is skipped; a backend failure, a wrong-typed entry or a null
    key ends the call with an exception after whatever it already did (there
    is no transaction, so a save stays saved). */
module PersonService {
  import opened Wrappers
  import opened Values
  import opened NamedCaches
  import opened ServiceState
  import opened Mapping
  import Repository

  const CacheName: string := "persons"
  const CacheKeyAll: Key := Literal("all")
  const NotFoundMessage: string := "Person not found"

  /** The properties `updatePerson` sets from its argument. */
  const UpdatedFields: set<string> := {"name", "birthDate"}

  /** `cache.get(key, type)` with the backend's outcome: an absent entry is
      null, an entry of another type throws. */
  function ReadEntry(c: NamedCache, k: Key, t: ValueType, oc: Outcome): (r: Result<Option<Value>, Error>)
    ensures oc.Fail? <==> r == Failure(CacheFailure)
    ensures oc.Ok? ==>
      && (r == Success(None) <==> k !in c)
      && (r.Success? && r.value.Some? <==> k in c && IsInstance(c[k], t))
      && (r.Success? && r.value.Some? ==> r.value.value == c[k])
  {
    if oc.Fail? then Failure(CacheFailure)
    else
      match TypedGet(c, k, t)
      case Miss => Success(None)
      case Hit(v) => Success(Some(v))
      case WrongType => Failure(TypeMismatch)
  }

  /** `getAllPersonsFromCache` as written: the result starts as an empty list
      and is only replaced by the lookup when the cache exists. */
  function AllFromCache(m: Manager, oc: Outcome): (r: Result<Option<seq<Obj>>, Error>)
    ensures CacheName !in m ==> r == Success(Some([]))
    ensures CacheName in m ==> r == AllFromCacheFixed(m, oc)
  {
    if CacheName !in m then Success(Some([])) else ReadAll(m[CacheName], oc)
  }

  /** `getAllPersonsFromCache` with the result starting as null: a missing
      cache is a miss. */
  function AllFromCacheFixed(m: Manager, oc: Outcome): (r: Result<Option<seq<Obj>>, Error>)
    ensures CacheName !in m ==> r == Success(None)
    ensures r.Success? && r.value.Some? ==> CacheName in m && All in m[CacheName] && m[CacheName][All] == List(r.value.value)
    ensures CacheName in m && oc.Fail? ==> r == Failure(CacheFailure)
    ensures CacheName in m && oc.Ok? && All in m[CacheName] && m[CacheName][All].List? ==> r == Success(Some(m[CacheName][All].objs))
    ensures CacheName in m && oc.Ok? && All in m[CacheName] && !m[CacheName][All].List? ==> r == Failure(TypeMismatch)
  {
    if CacheName !in m then Success(None) else ReadAll(m[CacheName], oc)
  }

  function ReadAll(c: NamedCache, oc: Outcome): (r: Result<Option<seq<Obj>>, Error>)
    ensures r.Success? && r.value.Some? ==> All in c && c[All] == List(r.value.value)
    ensures oc.Ok? && All !in c ==> r == Success(None)
    ensures oc.Fail? ==> r == Failure(CacheFailure)
    ensures oc.Ok? && All in c && c[All].List? ==> r == Success(Some(c[All].objs))
    ensures oc.Ok? && All in c && !c[All].List? ==> r == Failure(TypeMismatch)
  {
    match ReadEntry(c, CacheKeyAll, ListType, oc)
    case Failure(e) => Failure(e)
    case Success(None) => Success(None)
    case Success(Some(v)) => Success(Some(v.objs))
  }

  /** `getPersonFromCache`: null when the cache is missing or holds no entry. */
  function PersonFromCache(m: Manager, id: Id, oc: Outcome): (r: Result<Option<Obj>, Error>)
    ensures CacheName !in m ==> r == Success(None)
    ensures r.Success? && r.value.Some? ==>
      && CacheName in m && EntityId(id) in m[CacheName]
      && m[CacheName][EntityId(id)] == Item(r.value.value) && r.value.value.cls == Person
    ensures CacheName in m && oc.Ok? && EntityId(id) !in m[CacheName] ==> r == Success(None)
    ensures CacheName in m && oc.Fail? ==> r == Failure(CacheFailure)
    ensures CacheName in m && oc.Ok? && EntityId(id) in m[CacheName] ==>
      var v := m[CacheName][EntityId(id)];
      r == (if IsInstance(v, ItemOf(Person)) then Success(Some(v.obj)) else Failure(TypeMismatch))
  {
    if CacheName !in m then Success(None)
    else
      match ReadEntry(m[CacheName], EntityId(id), ItemOf(Person), oc)
      case Failure(e) => Failure(e)
      case Success(None) => Success(None)
      case Success(Some(v)) => Success(Some(v.obj))
  }

  /** A write to the `persons` cache when it exists: the backend may fail. */
  function Write(m: Manager, f: NamedCache -> NamedCache, oc: Outcome): (r: Result<Manager, Error>)
    ensures CacheName !in m ==> r == Success(m)
    ensures CacheName in m ==> (r.Failure? <==> oc.Fail?)
    ensures CacheName in m && r.Success? ==> r.value == m[CacheName := f(m[CacheName])]
  {
    if CacheName !in m then Success(m)
    else if oc.Fail? then Failure(CacheFailure)
    else Success(m[CacheName := f(m[CacheName])])
  }

  /** `addPersonToCache`: stores the person under its id; a null id is
      rejected as a key. */
  function AddPersonToCache(m: Manager, person: Obj, oc: Outcome): (r: Result<Manager, Error>)
    ensures CacheName !in m ==> r == Success(m)
    ensures CacheName in m && person.id.None? ==> r == Failure(NullCacheKey)
    ensures CacheName in m && person.id.Some? && oc.Fail? ==> r == Failure(CacheFailure)
    ensures r.Success? && CacheName in m ==>
      && person.id.Some?
      && r.value == m[CacheName := m[CacheName][EntityId(person.id.value) := Item(person)]]
  {
    if CacheName !in m then Success(m)
    else if person.id.None? then Failure(NullCacheKey)
    else Write(m, (c: NamedCache) => c[EntityId(person.id.value) := Item(person)], oc)
  }

  /** `removePersonFromCache`. */
  function RemovePersonFromCache(m: Manager, id: Id, oc: Outcome): (r: Result<Manager, Error>)
    ensures CacheName !in m ==> r == Success(m)
    ensures CacheName in m ==> (r.Failure? <==> oc.Fail?)
    ensures r.Success? && CacheName in m ==> r.value == m[CacheName := m[CacheName] - {EntityId(id)}]
  {
    Write(m, (c: NamedCache) => c - {EntityId(id)}, oc)
  }

  /** `setPersonsToCache`. */
  function SetPersonsToCache(m: Manager, persons: seq<Obj>, oc: Outcome): (r: Result<Manager, Error>)
    ensures CacheName !in m ==> r == Success(m)
    ensures CacheName in m ==> (r.Failure? <==> oc.Fail?)
    ensures r.Success? && CacheName in m ==> r.value == m[CacheName := m[CacheName][All := List(persons)]]
  {
    Write(m, (c: NamedCache) => c[All := List(persons)], oc)
  }

  /** `updateAllPersonsCache`: reloads the listing and stores it, only when
      the cache exists. */
  function UpdateAllPersonsCache(w: World, oc: Outcome): (s: Step<()>)
    ensures s.world.repo.rows == w.repo.rows
    ensures CacheName !in w.caches ==> s == Step(Success(()), w)
    ensures CacheName in w.caches ==>
      && s.world.repo.log == w.repo.log + [Repository.FindAll]
      && (s.out.Failure? <==> oc.Fail?)
      && (s.out.Failure? ==> s.world.caches == w.caches)
      && (s.out.Success? ==> s.world.caches == w.caches[CacheName := w.caches[CacheName][All := List(Repository.Listing(w.repo))]])
  {
    if CacheName !in w.caches then Step(Success(()), w)
    else
      var (persons, repo) := Repository.FindAllOp(w.repo);
      match SetPersonsToCache(w.caches, persons, oc)
      case Failure(e) => Step(Failure(e), World(repo, w.caches))
      case Success(caches) => Step(Success(()), World(repo, caches))
  }

  /** `getAllPersons` over a given reading of the cache: a list read is
      returned as is, a null one makes it load the listing and store it. */
  function GetAllPersonsWith(w: World, cached: Result<Option<seq<Obj>>, Error>, writeOc: Outcome): (s: Step<seq<Obj>>)
    ensures s.world.repo.rows == w.repo.rows
    ensures cached.Failure? ==> s == Step(Failure(cached.error), w)
    ensures cached.Success? && cached.value.Some? ==> s == Step(Success(cached.value.value), w)
    ensures cached == Success(None) ==>
      && s.world.repo.log == w.repo.log + [Repository.FindAll]
      && (s.out.Success? ==> s.out.value == Repository.Listing(w.repo))
      && (s.out.Success? <==> CacheName !in w.caches || writeOc.Ok?)
      && (CacheName in w.caches && writeOc.Ok? ==>
            s.world.caches == w.caches[CacheName := w.caches[CacheName][All := List(Repository.Listing(w.repo))]])
      && (CacheName !in w.caches || writeOc.Fail? ==> s.world.caches == w.caches)
  {
    match cached
    case Failure(e) => Step(Failure(e), w)
    case Success(Some(persons)) => Step(Success(persons), w)
    case Success(None) =>
      var (persons, repo) := Repository.FindAllOp(w.repo);
      match SetPersonsToCache(w.caches, persons, writeOc)
      case Failure(e) => Step(Failure(e), World(repo, w.caches))
      case Success(caches) => Step(Success(persons), World(repo, caches))
  }

  /** `getAllPersons` as written. */
  function GetAllPersons(w: World, readOc: Outcome, writeOc: Outcome): (s: Step<seq<Obj>>)
    ensures CacheName !in w.caches ==> s == Step(Success([]), w)
    ensures CacheName in w.caches ==> s == GetAllPersonsFixed(w, readOc, writeOc)
  {
    GetAllPersonsWith(w, AllFromCache(w.caches, readOc), writeOc)
  }

  /** `getAllPersons` with a missing cache read as a miss. */
  function GetAllPersonsFixed(w: World, readOc: Outcome, writeOc: Outcome): (s: Step<seq<Obj>>)
    ensures CacheName !in w.caches ==>
      s == Step(Success(Repository.Listing(w.repo)), w.(repo := w.repo.(log := w.repo.log + [Repository.FindAll])))
    ensures CacheName in w.caches ==>
      var c := w.caches[CacheName];
      && (readOc.Fail? ==> s == Step(Failure(CacheFailure), w))
      && (readOc.Ok? && All in c && c[All].List? ==> s == Step(Success(c[All].objs), w))
      && (readOc.Ok? && All in c && !c[All].List? ==> s == Step(Failure(TypeMismatch), w))
      && (readOc.Ok? && All !in c ==> s == GetAllPersonsWith(w, Success(None), writeOc))
  {
    GetAllPersonsWith(w, AllFromCacheFixed(w.caches, readOc), writeOc)
  }

  /** `getPersonById`: the cached entity, or the stored one, which is then
      cached; an unknown id raises "Person not found". */
  function GetPersonById(w: World, id: Id, readOc: Outcome, writeOc: Outcome): (s: Step<Obj>)
    ensures s.world.repo.rows == w.repo.rows
    ensures PersonFromCache(w.caches, id, readOc).Failure? ==> s == Step(Failure(PersonFromCache(w.caches, id, readOc).error), w)
    ensures PersonFromCache(w.caches, id, readOc).Success? && PersonFromCache(w.caches, id, readOc).value.Some? ==>
      s == Step(Success(PersonFromCache(w.caches, id, readOc).value.value), w)
    ensures PersonFromCache(w.caches, id, readOc) == Success(None) ==>
      && s.world.repo.log == w.repo.log + [Repository.FindById(id)]
      && (id !in w.repo.rows ==> s.out == Failure(NotFound(NotFoundMessage)) && s.world.caches == w.caches)
      && (id in w.repo.rows ==>
            && (s.out.Success? <==> CacheName !in w.caches || (writeOc.Ok? && w.repo.rows[id].id.Some?))
            && (s.out.Success? ==> s.out.value == w.repo.rows[id])
            && (s.out.Success? && CacheName in w.caches ==>
                  s.world.caches == w.caches[CacheName := w.caches[CacheName][EntityId(w.repo.rows[id].id.value) := Item(w.repo.rows[id])]])
            && (s.out.Failure? || CacheName !in w.caches ==> s.world.caches == w.caches))
    ensures s.out.Success? ==>
      || (CacheName in w.caches && EntityId(id) in w.caches[CacheName] && w.caches[CacheName][EntityId(id)] == Item(s.out.value))
      || (id in w.repo.rows && s.out.value == w.repo.rows[id])
  {
    match PersonFromCache(w.caches, id, readOc)
    case Failure(e) => Step(Failure(e), w)
    case Success(Some(person)) => Step(Success(person), w)
    case Success(None) =>
      var (found, repo) := Repository.FindByIdOp(w.repo, id);
      if found.None? then Step(Failure(NotFound(NotFoundMessage)), World(repo, w.caches))
      else
        match AddPersonToCache(w.caches, found.value, writeOc)
        case Failure(e) => Step(Failure(e), World(repo, w.caches))
        case Success(caches) => Step(Success(found.value), World(repo, caches))
  }

  /** After a save: reload and store the listing, then store the saved person. */
  function RefreshAfterSave(w: World, saved: Obj, allOc: Outcome, idOc: Outcome): (s: Step<Obj>)
    ensures s.world.repo.rows == w.repo.rows
    ensures s.out.Success? ==> s.out.value == saved
    ensures s.out.Success? <==> CacheName !in w.caches || (allOc.Ok? && idOc.Ok? && saved.id.Some?)
    ensures CacheName !in w.caches ==> s.world == w
    ensures CacheName in w.caches ==>
      && s.world.repo.log == w.repo.log + [Repository.FindAll]
      && (allOc.Fail? ==> s.world.caches == w.caches)
      && (allOc.Ok? && (idOc.Fail? || saved.id.None?) ==>
            s.world.caches == w.caches[CacheName := w.caches[CacheName][All := List(Repository.Listing(w.repo))]])
      && (s.out.Success? ==>
            s.world.caches == w.caches[CacheName := w.caches[CacheName][All := List(Repository.Listing(w.repo))][EntityId(saved.id.value) := Item(saved)]])
  {
    var refreshed := UpdateAllPersonsCache(w, allOc);
    if refreshed.out.Failure? then Step(Failure(refreshed.out.error), refreshed.world)
    else
      match AddPersonToCache(refreshed.world.caches, saved, idOc)
      case Failure(e) => Step(Failure(e), refreshed.world)
      case Success(caches) => Step(Success(saved), refreshed.world.(caches := caches))
  }

  /** `createPerson`: save, then refresh the listing and the person's entry. */
  function CreatePerson(w: World, person: Obj, allOc: Outcome, idOc: Outcome): (s: Step<Obj>)
    ensures var (saved, repo) := Repository.SaveOp(w.repo, person);
      && s.world.repo.rows == repo.rows
      && (s.out.Success? <==> CacheName !in w.caches || (allOc.Ok? && idOc.Ok?))
      && (s.out.Success? ==> s.out.value == saved)
      && (CacheName !in w.caches ==> s.world.caches == w.caches)
      && (s.out.Success? && CacheName in w.caches ==>
            s.world.caches == w.caches[CacheName := w.caches[CacheName][All := List(Repository.Listing(repo))][EntityId(saved.id.value) := Item(saved)]])
  {
    var (saved, repo) := Repository.SaveOp(w.repo, person);
    RefreshAfterSave(World(repo, w.caches), saved, allOc, idOc)
  }

  /** `updatePerson`: loads the person through `getPersonById` (so a cached
      copy is what gets updated), sets name and birth date, saves it and
      refreshes the listing and the person's entry. */
  function UpdatePerson(w: World, id: Id, person: Obj, readOc: Outcome, fillOc: Outcome, allOc: Outcome, idOc: Outcome): (s: Step<Obj>)
    ensures GetPersonById(w, id, readOc, fillOc).out.Failure? ==> s == GetPersonById(w, id, readOc, fillOc).(out := Failure(GetPersonById(w, id, readOc, fillOc).out.error))
    ensures GetPersonById(w, id, readOc, fillOc).out.Success? ==>
      var loaded := GetPersonById(w, id, readOc, fillOc);
      var (saved, repo) := Repository.SaveOp(loaded.world.repo, CopyProps(loaded.out.value, person, UpdatedFields));
      && s.world.repo.rows == repo.rows
      && (s.out.Success? <==> CacheName !in w.caches || (allOc.Ok? && idOc.Ok?))
      && (s.out.Success? ==> s.out.value == saved)
      && (CacheName !in w.caches ==> s.world.caches == w.caches)
      && (s.out.Success? && CacheName in w.caches ==>
            s.world.caches == loaded.world.caches[CacheName := loaded.world.caches[CacheName][All := List(Repository.Listing(repo))][EntityId(saved.id.value) := Item(saved)]])
  {
    var loaded := GetPersonById(w, id, readOc, fillOc);
    if loaded.out.Failure? then Step(Failure(loaded.out.error), loaded.world)
    else
      var (saved, repo) := Repository.SaveOp(loaded.world.repo, CopyProps(loaded.out.value, person, UpdatedFields));
      RefreshAfterSave(World(repo, loaded.world.caches), saved, allOc, idOc)
  }

  /** `deletePerson`: an unknown id raises "Person not found" before any
      change; otherwise delete, refresh the listing and drop the entry. */
  function DeletePerson(w: World, id: Id, allOc: Outcome, idOc: Outcome): (s: Step<()>)
    ensures id !in w.repo.rows ==>
      s == Step(Failure(NotFound(NotFoundMessage)), w.(repo := w.repo.(log := w.repo.log + [Repository.ExistsById(id)])))
    ensures id in w.repo.rows ==> s.world.repo.rows == w.repo.rows - {id}
    ensures id in w.repo.rows ==> (s.out.Success? <==> CacheName !in w.caches || (allOc.Ok? && idOc.Ok?))
    ensures CacheName !in w.caches ==> s.world.caches == w.caches
    ensures id in w.repo.rows && CacheName in w.caches ==>
      var listing := List(Repository.Listing(Repository.DeleteByIdOp(w.repo, id)));
      && (allOc.Fail? ==> s.world.caches == w.caches)
      && (allOc.Ok? && idOc.Fail? ==> s.world.caches == w.caches[CacheName := w.caches[CacheName][All := listing]])
      && (s.out.Success? ==> s.world.caches == w.caches[CacheName := w.caches[CacheName][All := listing] - {EntityId(id)}])
  {
    var (known, checked) := Repository.ExistsByIdOp(w.repo, id);
    if !known then Step(Failure(NotFound(NotFoundMessage)), World(checked, w.caches))
    else
      var refreshed := UpdateAllPersonsCache(World(Repository.DeleteByIdOp(checked, id), w.caches), allOc);
      if refreshed.out.Failure? then Step(Failure(refreshed.out.error), refreshed.world)
      else
        match RemovePersonFromCache(refreshed.world.caches, id, idOc)
        case Failure(e) => Step(Failure(e), refreshed.world)
        case Success(caches) => Step(Success(()), refreshed.world.(caches := caches))
  }
}

=== FILE: product_equivalence.dfy ===
/** `ProductManualService` claims to reproduce `ProductService` by hand, but
    the two do not cache the same thing: the declarative service stores the
    entities and the manual one stores their responses. On a healthy backend
    they are equivalent up to `toResponse`: the manual cache is always the
    declarative cache with every value mapped, and every answer of the manual
    service is the declarative answer mapped. */
module ProductEquivalence {
  import opened Wrappers
  import opened Values
  import opened NamedCaches
  import opened ServiceState
  import opened Mapping
  import Repository
  import EC = EntityCache
  import Manual = ProductManualService
  import Declared = ProductService
  import DeclaredCaching

  const Name: string := Declared.CacheName

  /** A cached entity or list of entities, as the manual service caches it. */
  function MapValue(mp: Mapper, v: Value): Value {
    match v
    case Item(x) => Item(mp.toResponse(x))
    case List(xs) => List(ToResponseList(mp, xs))
  }

  /** A declarative cache with every value mapped to its responses. */
  function MapCache(mp: Mapper, c: NamedCache): (r: NamedCache)
    ensures r.Keys == c.Keys
    ensures forall k | k in c :: r[k] == MapValue(mp, c[k])
  {
    map k | k in c :: MapValue(mp, c[k])
  }

  lemma MapCachePut(mp: Mapper, c: NamedCache, k: Key, v: Value)
    ensures MapCache(mp, c[k := v]) == MapCache(mp, c)[k := MapValue(mp, v)]
  {
  }

  lemma MapCacheEvict(mp: Mapper, c: NamedCache, k: Key)
    ensures MapCache(mp, c - {k}) == MapCache(mp, c) - {k}
  {
  }

  /** Every stored row is a `Product` entity. */
  ghost predicate ProductRows(r: Repository.Repo) {
    forall i | i in r.rows :: r.rows[i].cls == Product
  }

  /** What the product mapper must do for the two services to agree: its
      entities are products, its responses are product responses carrying the
      entity's id, and `copy` sets exactly the properties `updateProduct` sets. */
  ghost predicate ProductMapper(mp: Mapper) {
    && KeepsId(mp)
    && Produces(mp, ProductResponse)
    && (forall q :: mp.toEntity(q).cls == Product)
    && (forall e, q :: mp.copy(e, q) == CopyProps(e, mp.toEntity(q), Declared.UpdatedFields))
  }

  /** The manual state `m` simulates the declarative state `d`. */
  ghost predicate Related(m: World, d: World, mp: Mapper) {
    && m.repo == d.repo
    && m.caches.Keys == d.caches.Keys
    && (forall n | n in d.caches && n != Name :: m.caches[n] == d.caches[n])
    && Name in d.caches
    && m.caches[Name] == MapCache(mp, d.caches[Name])
    && WellTyped(d.caches[Name], Product)
    && Repository.Valid(d.repo)
    && ProductRows(d.repo)
    && ProductMapper(mp)
  }

  /** The product operations, as a client of the manual service issues them. */
  datatype Op =
    | GetAll
    | GetById(id: Id)
    | Create(request: Request)
    | Update(request: Request)
    | Delete(id: Id)
    | ClearCache

  /** What a client sees of one operation. */
  datatype Answer = Listed(objs: seq<Obj>) | Returned(obj: Obj) | Done | Raised(error: Error)

  function Seen<T>(out: Result<T, Error>, f: T -> Answer): Answer {
    match out
    case Success(v) => f(v)
    case Failure(e) => Raised(e)
  }

  /** A declarative answer as the manual service would phrase it. */
  function MapAnswer(mp: Mapper, a: Answer): Answer {
    match a
    case Listed(xs) => Listed(ToResponseList(mp, xs))
    case Returned(x) => Returned(mp.toResponse(x))
    case Done => Done
    case Raised(e) => Raised(e)
  }

  function MapAnswers(mp: Mapper, answers: seq<Answer>): (r: seq<Answer>)
    ensures |r| == |answers|
  {
    if answers == [] then [] else [MapAnswer(mp, answers[0])] + MapAnswers(mp, answers[1..])
  }

  function StepManual(w: World, mp: Mapper, op: Op): (Answer, World) {
    match op
    case GetAll => var s := Manual.GetAll(w, mp, Ok, Ok); (Seen(s.out, xs => Listed(xs)), s.world)
    case GetById(id) => var s := Manual.GetById(w, mp, id, Ok, Ok); (Seen(s.out, x => Returned(x)), s.world)
    case Create(q) => var s := Manual.Create(w, mp, q, Ok); (Seen(s.out, x => Returned(x)), s.world)
    case Update(q) => var s := Manual.Update(w, mp, q, Ok, Ok); (Seen(s.out, x => Returned(x)), s.world)
    case Delete(id) => var s := Manual.Delete(w, id, Ok, Ok); (Seen(s.out, _ => Done), s.world)
    case ClearCache => var s := Manual.ClearCache(w, Ok); (Seen(s.out, _ => Done), s.world)
  }

  /** The same operation on the declarative service, for a client that maps
      the request with `toEntity` before calling `createProduct` or
      `updateProduct`. */
  function StepDeclared(w: World, mp: Mapper, op: Op): (Answer, World) {
    match op
    case GetAll => var s := Declared.GetAllProducts(w); (Seen(s.out, xs => Listed(xs)), s.world)
    case GetById(id) => var s := Declared.GetProductById(w, id); (Seen(s.out, x => Returned(x)), s.world)
    case Create(q) => var s := Declared.CreateProduct(w, mp.toEntity(q)); (Seen(s.out, x => Returned(x)), s.world)
    case Update(q) => var s := Declared.UpdateProduct(w, q.id, mp.toEntity(q)); (Seen(s.out, x => Returned(x)), s.world)
    case Delete(id) => var s := Declared.DeleteProduct(w, id); (Seen(s.out, _ => Done), s.world)
    case ClearCache => var s := Declared.ClearCache(w); (Seen(s.out, _ => Done), s.world)
  }

  function RunManual(w: World, mp: Mapper, ops: seq<Op>): (seq<Answer>, World)
    decreases |ops|
  {
    if ops == [] then ([], w)
    else
      var (a, w') := StepManual(w, mp, ops[0]);
      var (rest, last) := RunManual(w', mp, ops[1..]);
      ([a] + rest, last)
  }

  function RunDeclared(w: World, mp: Mapper, ops: seq<Op>): (seq<Answer>, World)
    decreases |ops|
  {
    if ops == [] then ([], w)
    else
      var (a, w') := StepDeclared(w, mp, ops[0]);
      var (rest, last) := RunDeclared(w', mp, ops[1..]);
      ([a] + rest, last)
  }

  /** The step keeps the relation and the manual answer is the mapped declarative one. */
  ghost predicate Simulates(m: World, d: World, mp: Mapper, op: Op) {
    && StepManual(m, mp, op).0 == MapAnswer(mp, StepDeclared(d, mp, op).0)
    && Related(StepManual(m, mp, op).1, StepDeclared(d, mp, op).1, mp)
  }

  /** Replacing the declarative products cache by a well-typed `c`, the manual
      one by its mapped view, and the store by a consistent store of products
      keeps the states related. */
  lemma RelatedAfterCacheChange(m: World, d: World, mp: Mapper, repo: Repository.Repo, c: NamedCache)
    requires Related(m, d, mp)
    requires Repository.Valid(repo) && ProductRows(repo) && WellTyped(c, Product)
    ensures Related(World(repo, m.caches[Name := MapCache(mp, c)]), World(repo, d.caches[Name := c]), mp)
  {
  }

  lemma GetAllSimulates(m: World, d: World, mp: Mapper)
    requires Related(m, d, mp)
    ensures Simulates(m, d, mp, GetAll)
  {
    var c := d.caches[Name];
    if All in c {
      assert c[All].List?;
    } else {
      var (listing, repo) := Repository.FindAllOp(d.repo);
      Repository.OperationsPreserveValid(d.repo, Obj(Product, None, map[]), 0);
      MapCachePut(mp, c, All, List(listing));
      assert Manual.GetAll(m, mp, Ok, Ok).world == World(repo, m.caches[Name := MapCache(mp, c[All := List(listing)])]);
      assert Declared.GetAllProducts(d).world == World(repo, d.caches[Name := c[All := List(listing)]]);
      RelatedAfterCacheChange(m, d, mp, repo, c[All := List(listing)]);
    }
  }

  lemma GetByIdAnswerSimulates(m: World, d: World, mp: Mapper, id: Id)
    requires Related(m, d, mp)
    ensures StepManual(m, mp, GetById(id)).0 == MapAnswer(mp, StepDeclared(d, mp, GetById(id)).0)
  {
    var c := d.caches[Name];
    if EntityId(id) in c {
      assert c[EntityId(id)].Item? && c[EntityId(id)].obj.cls == Product;
    } else if id in d.repo.rows {
      assert d.repo.rows[id].id == Some(id);
    }
  }

  /** A miss on a stored id caches the row on both sides. */
  lemma GetByIdLoadKeepsRelated(m: World, d: World, mp: Mapper, id: Id)
    requires Related(m, d, mp)
    requires EntityId(id) !in d.caches[Name] && id in d.repo.rows
    ensures Related(Manual.GetById(m, mp, id, Ok, Ok).world, Declared.GetProductById(d, id).world, mp)
  {
    var c := d.caches[Name];
    var repo := Repository.FindByIdOp(d.repo, id).1;
    Repository.OperationsPreserveValid(d.repo, Obj(Product, None, map[]), id);
    var row := d.repo.rows[id];
    assert row.id == Some(id) && mp.toResponse(row).id == Some(id);
    MapCachePut(mp, c, EntityId(id), Item(row));
    RelatedAfterCacheChange(m, d, mp, repo, c[EntityId(id) := Item(row)]);
  }

  lemma GetByIdKeepsRelated(m: World, d: World, mp: Mapper, id: Id)
    requires Related(m, d, mp)
    ensures Related(StepManual(m, mp, GetById(id)).1, StepDeclared(d, mp, GetById(id)).1, mp)
  {
    var c := d.caches[Name];
    if EntityId(id) in c {
      assert c[EntityId(id)].Item? && c[EntityId(id)].obj.cls == Product;
    } else if id in d.repo.rows {
      GetByIdLoadKeepsRelated(m, d, mp, id);
    } else {
      Repository.OperationsPreserveValid(d.repo, Obj(Product, None, map[]), id);
      RelatedAfterCacheChange(m, d, mp, Repository.FindByIdOp(d.repo, id).1, c);
    }
  }

  lemma GetByIdSimulates(m: World, d: World, mp: Mapper, id: Id)
    requires Related(m, d, mp)
    ensures Simulates(m, d, mp, GetById(id))
  {
    GetByIdAnswerSimulates(m, d, mp, id);
    GetByIdKeepsRelated(m, d, mp, id);
  }

  lemma CreateSimulates(m: World, d: World, mp: Mapper, q: Request)
    requires Related(m, d, mp)
    ensures Simulates(m, d, mp, Create(q))
  {
    var c := d.caches[Name];
    var repo := Repository.SaveOp(d.repo, mp.toEntity(q)).1;
    Repository.OperationsPreserveValid(d.repo, mp.toEntity(q), 0);
    MapCacheEvict(mp, c, All);
    assert Manual.Create(m, mp, q, Ok).world == World(repo, m.caches[Name := MapCache(mp, c - {All})]);
    assert Declared.CreateProduct(d, mp.toEntity(q)).world == World(repo, d.caches[Name := c - {All}]);
    RelatedAfterCacheChange(m, d, mp, repo, c - {All});
  }

  /** Both services' pair of evictions, on the whole cache manager. */
  lemma EvictionsOnManagers(mc: Manager, dc: Manager, id: Id)
    requires Name in mc && Name in dc
    ensures EC.EvictAll(Manual.Cache, EC.EvictById(Manual.Cache, mc, id, Ok), Ok) == mc[Name := mc[Name] - {EntityId(id), All}]
    ensures DeclaredCaching.CacheEvict(DeclaredCaching.CacheEvict(dc, Name, EntityId(id)), Name, All) == dc[Name := dc[Name] - {EntityId(id), All}]
  {
    assert mc[Name] - {EntityId(id)} - {All} == mc[Name] - {EntityId(id), All};
    assert dc[Name] - {EntityId(id)} - {All} == dc[Name] - {EntityId(id), All};
  }

  lemma MapCacheEvictions(mp: Mapper, c: NamedCache, id: Id)
    ensures MapCache(mp, c - {EntityId(id), All}) == MapCache(mp, c) - {EntityId(id), All}
  {
  }

  /** Evicting one id and the collection from both caches, over a new store
      that is still consistent and holds products, keeps the states related. */
  lemma RelatedAfterEvictions(m: World, d: World, mp: Mapper, repo: Repository.Repo, id: Id)
    requires Related(m, d, mp)
    requires Repository.Valid(repo) && ProductRows(repo)
    ensures var mc := EC.EvictAll(Manual.Cache, EC.EvictById(Manual.Cache, m.caches, id, Ok), Ok);
      var dc := DeclaredCaching.CacheEvict(DeclaredCaching.CacheEvict(d.caches, Name, EntityId(id)), Name, All);
      Related(World(repo, mc), World(repo, dc), mp)
  {
    var c := d.caches[Name];
    EvictionsOnManagers(m.caches, d.caches, id);
    MapCacheEvictions(mp, c, id);
    RelatedAfterCacheChange(m, d, mp, repo, c - {EntityId(id), All});
  }

  /** The row `updateProduct` saves for an existing id: the mapper's copy is
      exactly the properties the declarative service sets. */
  lemma UpdatedRow(d: World, mp: Mapper, q: Request)
    requires ProductMapper(mp)
    requires q.id.Some? && q.id.value in d.repo.rows
    ensures mp.copy(d.repo.rows[q.id.value], q) == CopyProps(d.repo.rows[q.id.value], mp.toEntity(q), Declared.UpdatedFields)
  {
  }

  lemma UpdateAnswerSimulates(m: World, d: World, mp: Mapper, q: Request)
    requires Related(m, d, mp)
    ensures StepManual(m, mp, Update(q)).0 == MapAnswer(mp, StepDeclared(d, mp, Update(q)).0)
  {
    if q.id.Some? && q.id.value in d.repo.rows {
      UpdatedRow(d, mp, q);
    }
  }

  lemma UpdateFoundKeepsRelated(m: World, d: World, mp: Mapper, q: Request)
    requires Related(m, d, mp)
    requires q.id.Some? && q.id.value in d.repo.rows
    ensures Related(Manual.Update(m, mp, q, Ok, Ok).world, Declared.UpdateProduct(d, q.id, mp.toEntity(q)).world, mp)
  {
    var id := q.id.value;
    var found := Repository.FindByIdOp(d.repo, id).1;
    var x := CopyProps(d.repo.rows[id], mp.toEntity(q), Declared.UpdatedFields);
    UpdatedRow(d, mp, q);
    Repository.OperationsPreserveValid(d.repo, x, id);
    Repository.OperationsPreserveValid(found, x, id);
    var (saved, repo) := Repository.SaveOp(found, x);
    assert mp.toResponse(saved).id == saved.id;
    RelatedAfterEvictions(m, d, mp, repo, saved.id.value);
  }

  lemma UpdateKeepsRelated(m: World, d: World, mp: Mapper, q: Request)
    requires Related(m, d, mp)
    ensures Related(StepManual(m, mp, Update(q)).1, StepDeclared(d, mp, Update(q)).1, mp)
  {
    if q.id.Some? {
      var id := q.id.value;
      if id in d.repo.rows {
        UpdateFoundKeepsRelated(m, d, mp, q);
      } else {
        Repository.OperationsPreserveValid(d.repo, Obj(Product, None, map[]), id);
        RelatedAfterCacheChange(m, d, mp, Repository.FindByIdOp(d.repo, id).1, d.caches[Name]);
      }
    }
  }

  lemma UpdateSimulates(m: World, d: World, mp: Mapper, q: Request)
    requires Related(m, d, mp)
    ensures Simulates(m, d, mp, Update(q))
  {
    UpdateAnswerSimulates(m, d, mp, q);
    UpdateKeepsRelated(m, d, mp, q);
  }

  lemma DeleteKeepsRelated(m: World, d: World, mp: Mapper, id: Id)
    requires Related(m, d, mp)
    ensures Related(Manual.Delete(m, id, Ok, Ok).world, Declared.DeleteProduct(d, id).world, mp)
  {
    Repository.OperationsPreserveValid(d.repo, Obj(Product, None, map[]), id);
    RelatedAfterEvictions(m, d, mp, Repository.DeleteByIdOp(d.repo, id), id);
  }

  lemma DeleteSimulates(m: World, d: World, mp: Mapper, id: Id)
    requires Related(m, d, mp)
    ensures Simulates(m, d, mp, Delete(id))
  {
    DeleteKeepsRelated(m, d, mp, id);
  }

  lemma StepSimulates(m: World, d: World, mp: Mapper, op: Op)
    requires Related(m, d, mp)
    ensures Simulates(m, d, mp, op)
  {
    match op {
      case GetAll => GetAllSimulates(m, d, mp);
      case GetById(id) => GetByIdSimulates(m, d, mp, id);
      case Create(q) => CreateSimulates(m, d, mp, q);
      case Update(q) => UpdateSimulates(m, d, mp, q);
      case Delete(id) => DeleteSimulates(m, d, mp, id);
      case ClearCache =>
    }
  }

  /** Any sequence of product operations issued to the manual service on a
      healthy backend answers what the declarative service answers, mapped to
      responses, and leaves the same store and the mapped cache. */
  lemma {:induction false} ManualSimulatesDeclarative(m: World, d: World, mp: Mapper, ops: seq<Op>)
    requires Related(m, d, mp)
    ensures RunManual(m, mp, ops).0 == MapAnswers(mp, RunDeclared(d, mp, ops).0)
    ensures Related(RunManual(m, mp, ops).1, RunDeclared(d, mp, ops).1, mp)
    decreases |ops|
  {
    if ops != [] {
      StepSimulates(m, d, mp, ops[0]);
      ManualSimulatesDeclarative(StepManual(m, mp, ops[0]).1, StepDeclared(d, mp, ops[0]).1, mp, ops[1..]);
    }
  }

  /** The relation is not vacuous: an empty store with the declarative cache
      empty is related to the manual service's state with its cache empty. */
  lemma EmptyIsRelated(mp: Mapper, others: Manager)
    requires ProductMapper(mp)
    requires Name !in others
    ensures Related(World(Repository.Empty, others[Name := map[]]), World(Repository.Empty, others[Name := map[]]), mp)
  {
    Repository.EmptyIsValid();
  }
}

=== FILE: product_manual_service.dfy ===
/** `ProductManualService`: cache-aside reads over `ProductCache`; writes only
    invalidate (no write-through). Each cache call takes its backend outcome. */
module ProductManualService {
  import opened Wrappers
  import opened Values
  import opened ServiceState
  import opened Mapping
  import Repository
  import EC = EntityCache
  import CacheAside

  const Cache: EC.Wrapper := EC.ProductCache

  function NotFoundMessage(id: Id): string {
    CacheAside.NotFoundMessage("Product not found: ", id)
  }

  function GetAll(w: World, mp: Mapper, readOc: Outcome, writeOc: Outcome): Step<seq<Obj>> {
    CacheAside.GetAll(Cache, w, mp, readOc, writeOc)
  }

  function GetById(w: World, mp: Mapper, id: Id, readOc: Outcome, writeOc: Outcome): Step<Obj> {
    CacheAside.GetById(Cache, "Product not found: ", w, mp, id, readOc, writeOc)
  }

  /** Saves the new product and invalidates the collection entry; no entry is
      written for the product itself. */
  function Create(w: World, mp: Mapper, request: Request, evictOc: Outcome): (s: Step<Obj>)
    ensures var (saved, repo) := Repository.SaveOp(w.repo, mp.toEntity(request));
      && s.out == Success(mp.toResponse(saved))
      && s.world.repo == repo
    ensures EC.OnlyOwnCache(Cache, w.caches, s.world.caches)
    ensures Cache.cacheName in w.caches ==> s.world.caches[Cache.cacheName] - {All} == w.caches[Cache.cacheName] - {All}
    ensures evictOc.Ok? && Cache.cacheName in w.caches ==> All !in s.world.caches[Cache.cacheName]
  {
    var (saved, repo) := Repository.SaveOp(w.repo, mp.toEntity(request));
    var response := mp.toResponse(saved);
    Step(Success(response), World(repo, EC.EvictAll(Cache, w.caches, evictOc)))
  }

  /** Evicts the entry of the id the response carries. The wrapper's evict
      takes a `Long`; a null id makes the backend throw, which the wrapper
      absorbs. */
  function EvictResponse(caches: NamedCaches.Manager, response: Obj, oc: Outcome): (r: NamedCaches.Manager)
    ensures EC.OnlyOwnCache(Cache, caches, r)
    ensures response.id.None? || oc.Fail? ==> r == caches
    ensures response.id.Some? && oc.Ok? && Cache.cacheName in caches ==>
      r[Cache.cacheName] == caches[Cache.cacheName] - {EntityId(response.id.value)}
  {
    if response.id.None? then caches else EC.EvictById(Cache, caches, response.id.value, oc)
  }

  /** Loads the product or fails before any change, copies the request onto
      it, saves it, then evicts the response's id and the collection entry. */
  function Update(w: World, mp: Mapper, request: Request, evictIdOc: Outcome, evictAllOc: Outcome): (s: Step<Obj>)
    ensures request.id.None? ==> s == Step(Failure(MissingId), w)
    ensures request.id.Some? && request.id.value !in w.repo.rows ==>
      && s.out == Failure(NotFound(NotFoundMessage(request.id.value)))
      && s.world == World(w.repo.(log := w.repo.log + [Repository.FindById(request.id.value)]), w.caches)
    ensures request.id.Some? && request.id.value in w.repo.rows ==>
      var found := w.repo.(log := w.repo.log + [Repository.FindById(request.id.value)]);
      var (saved, repo) := Repository.SaveOp(found, mp.copy(w.repo.rows[request.id.value], request));
      && s.out == Success(mp.toResponse(saved))
      && s.world.repo == repo
    ensures EC.OnlyOwnCache(Cache, w.caches, s.world.caches)
    ensures s.out.Success? && evictAllOc.Ok? && Cache.cacheName in w.caches ==> All !in s.world.caches[Cache.cacheName]
    ensures s.out.Success? && evictIdOc.Ok? && Cache.cacheName in w.caches && s.out.value.id.Some? ==>
      EntityId(s.out.value.id.value) !in s.world.caches[Cache.cacheName]
    ensures s.out.Success? && Cache.cacheName in w.caches ==>
      var touched := CacheAside.Touched(s.out.value);
      s.world.caches[Cache.cacheName] - touched == w.caches[Cache.cacheName] - touched
  {
    if request.id.None? then Step(Failure(MissingId), w)
    else
      var id := request.id.value;
      var (found, repo) := Repository.FindByIdOp(w.repo, id);
      if found.None? then Step(Failure(NotFound(NotFoundMessage(id))), World(repo, w.caches))
      else
        var (saved, repo') := Repository.SaveOp(repo, mp.copy(found.value, request));
        var response := mp.toResponse(saved);
        var caches := EvictResponse(w.caches, response, evictIdOc);
        Step(Success(response), World(repo', EC.EvictAll(Cache, caches, evictAllOc)))
  }

  function Delete(w: World, id: Id, evictIdOc: Outcome, evictAllOc: Outcome): Step<()> {
    CacheAside.Delete(Cache, w, id, evictIdOc, evictAllOc)
  }

  function ClearCache(w: World, oc: Outcome): Step<()> {
    CacheAside.ClearCache(Cache, w, oc)
  }
}

=== FILE: product_service.dfy ===
/** `ProductService`: lazy loading declared by annotations on the `products`
    cache. It caches the entities themselves; writes only evict. */
module ProductService {
  import opened Wrappers
  import opened Values
  import opened ServiceState
  import opened Mapping
  import opened DeclaredCaching
  import Repository

  const CacheName: string := "products"
  const CacheKeyAll: Key := Literal("all")

  /** The properties `updateProduct` sets from its argument. */
  const UpdatedFields: set<string> := {"name", "description", "price"}

  function NotFoundMessage(id: Id): string {
    "Product not found: " + IdText(id)
  }

  /** `@Cacheable(key = "'all'")` around `findAll`. */
  function GetAllProducts(w: World): (s: Step<seq<Obj>>)
    ensures s.world.repo.rows == w.repo.rows
    ensures s.world.repo == w.repo <==> Cached(w.caches, CacheName, CacheKeyAll).Some?
    ensures match Cached(w.caches, CacheName, CacheKeyAll)
      case Some(List(xs)) => s == Step(Success(xs), w)
      case Some(Item(_)) => s == Step(Failure(TypeMismatch), w)
      case None =>
        && s.out == Success(Repository.Listing(w.repo))
        && s.world.caches == CachePut(w.caches, CacheName, CacheKeyAll, List(s.out.value))
    ensures KeepsOthers(w.caches, s.world.caches, CacheName)
  {
    match Cached(w.caches, CacheName, CacheKeyAll)
    case Some(v) =>
      if v.List? then Step(Success(v.objs), w) else Step(Failure(TypeMismatch), w)
    case None =>
      var (entities, repo) := Repository.FindAllOp(w.repo);
      Step(Success(entities), World(repo, CachePut(w.caches, CacheName, CacheKeyAll, List(entities))))
  }

  /** `@Cacheable(key = "#id")` around `findById(id).orElseThrow(...)`. */
  function GetProductById(w: World, id: Id): (s: Step<Obj>)
    ensures s.world.repo.rows == w.repo.rows
    ensures s.world.repo == w.repo <==> Cached(w.caches, CacheName, EntityId(id)).Some?
    ensures match Cached(w.caches, CacheName, EntityId(id))
      case Some(v) =>
        s == Step(if v.Item? && v.obj.cls == Product then Success(v.obj) else Failure(TypeMismatch), w)
      case None =>
        if id in w.repo.rows then
          && s.out == Success(w.repo.rows[id])
          && s.world.caches == CachePut(w.caches, CacheName, EntityId(id), Item(s.out.value))
        else
          s.out == Failure(NotFound(NotFoundMessage(id))) && s.world.caches == w.caches
    ensures KeepsOthers(w.caches, s.world.caches, CacheName)
  {
    match Cached(w.caches, CacheName, EntityId(id))
    case Some(v) =>
      if v.Item? && v.obj.cls == Product then Step(Success(v.obj), w) else Step(Failure(TypeMismatch), w)
    case None =>
      var (found, repo) := Repository.FindByIdOp(w.repo, id);
      if found.None? then Step(Failure(NotFound(NotFoundMessage(id))), World(repo, w.caches))
      else Step(Success(found.value), World(repo, CachePut(w.caches, CacheName, EntityId(id), Item(found.value))))
  }

  /** `@CacheEvict(key = "'all'")` around `save`. */
  function CreateProduct(w: World, product: Obj): (s: Step<Obj>)
    ensures var (saved, repo) := Repository.SaveOp(w.repo, product);
      s.out == Success(saved) && s.world.repo == repo
    ensures Named(s.world.caches, CacheName) == Named(w.caches, CacheName) - {CacheKeyAll}
    ensures KeepsOthers(w.caches, s.world.caches, CacheName)
  {
    var (saved, repo) := Repository.SaveOp(w.repo, product);
    Step(Success(saved), World(repo, CacheEvict(w.caches, CacheName, CacheKeyAll)))
  }

  /** Evicts `#result.id` and `'all'` after loading the entity straight from
      the store (the call to `getProductById` stays inside the object, so its
      own caching does not apply), setting name, description and price, and
      saving. A null id is rejected by `findById`. */
  function UpdateProduct(w: World, id: Option<Id>, product: Obj): (s: Step<Obj>)
    ensures id.None? ==> s == Step(Failure(MissingId), w)
    ensures id.Some? && id.value !in w.repo.rows ==>
      && s.out == Failure(NotFound(NotFoundMessage(id.value)))
      && s.world.caches == w.caches
    ensures id.Some? && id.value in w.repo.rows ==>
      var found := w.repo.(log := w.repo.log + [Repository.FindById(id.value)]);
      var (saved, repo) := Repository.SaveOp(found, CopyProps(w.repo.rows[id.value], product, UpdatedFields));
      && s.out == Success(saved)
      && s.world.repo == repo
      && Named(s.world.caches, CacheName) == Named(w.caches, CacheName) - {EntityId(saved.id.value), CacheKeyAll}
    ensures KeepsOthers(w.caches, s.world.caches, CacheName)
  {
    if id.None? then Step(Failure(MissingId), w)
    else
      var (found, repo) := Repository.FindByIdOp(w.repo, id.value);
      if found.None? then Step(Failure(NotFound(NotFoundMessage(id.value))), World(repo, w.caches))
      else
        var (saved, repo') := Repository.SaveOp(repo, CopyProps(found.value, product, UpdatedFields));
        var caches := CacheEvict(CacheEvict(w.caches, CacheName, EntityId(saved.id.value)), CacheName, CacheKeyAll);
        Step(Success(saved), World(repo', caches))
  }

  function DeleteProduct(w: World, id: Id): (s: Step<()>)
    ensures s.out.Success? && s.world.repo == Repository.DeleteByIdOp(w.repo, id)
    ensures Named(s.world.caches, CacheName) == Named(w.caches, CacheName) - {EntityId(id), CacheKeyAll}
    ensures KeepsOthers(w.caches, s.world.caches, CacheName)
  {
    var repo := Repository.DeleteByIdOp(w.repo, id);
    Step(Success(()), World(repo, CacheEvict(CacheEvict(w.caches, CacheName, EntityId(id)), CacheName, CacheKeyAll)))
  }

  function ClearCache(w: World): Step<()> {
    ClearAllEntries(w, CacheName)
  }
}

=== FILE: redis_adapter.dfy ===
/** `CacheRedisAdapter`: the cache port implemented directly on the key-value
    store, with explicit physical keys `manual-cache::<cacheName>::<key>`. Each
    operation takes the outcome of its store call; a failing call is caught and
    turned into the operation's safe default. */
module RedisAdapter {
  import opened Wrappers
  import opened Values

  /** The key space the adapter sees: physical string keys to stored values. */
  type Store = map<string, Value>

  const KeyPrefix: string := "manual-cache"
  const Separator: string := "::"

  /** What every physical key of `cacheName` starts with. */
  function NamespacePrefix(cacheName: string): string {
    KeyPrefix + Separator + cacheName + Separator
  }

  function BuildKey(cacheName: string, key: Key): string {
    KeyPrefix + Separator + cacheName + Separator + KeyText(key)
  }

  function BuildPattern(cacheName: string): string {
    KeyPrefix + Separator + cacheName + Separator + "*"
  }

  /** `KEYS pattern` for a pattern whose only metacharacter is a trailing `*`. */
  predicate MatchesPattern(physical: string, pattern: string) {
    0 < |pattern| && pattern[..|pattern| - 1] <= physical
  }

  /** A cache name the physical key format can separate from its neighbours. */
  predicate SeparatorFree(cacheName: string) {
    forall i :: 0 <= i < |cacheName| ==> cacheName[i] != ':'
  }

  /** The physical keys `clear(cacheName)` finds. */
  function Matching(s: Store, cacheName: string): set<string> {
    set k | k in s.Keys && MatchesPattern(k, BuildPattern(cacheName))
  }

  function Get(s: Store, cacheName: string, key: Key, t: ValueType, oc: Outcome): (r: Option<Value>)
    ensures oc.Fail? ==> r == None
    ensures r.Some? ==> IsInstance(r.value, t)
    ensures r.Some? <==> oc.Ok? && BuildKey(cacheName, key) in s && IsInstance(s[BuildKey(cacheName, key)], t)
    ensures r.Some? ==> r.value == s[BuildKey(cacheName, key)]
  {
    var redisKey := BuildKey(cacheName, key);
    if oc.Fail? then None
    else if redisKey !in s then None
    else if !IsInstance(s[redisKey], t) then None
    else Some(s[redisKey])
  }

  function GetList(s: Store, cacheName: string, key: Key, oc: Outcome): (r: Option<seq<Obj>>)
    ensures oc.Fail? ==> r == None
    ensures r.Some? <==> oc.Ok? && BuildKey(cacheName, key) in s && s[BuildKey(cacheName, key)].List?
    ensures r.Some? ==> s[BuildKey(cacheName, key)] == List(r.value)
  {
    var redisKey := BuildKey(cacheName, key);
    if oc.Fail? then None
    else if redisKey !in s then None
    else if !s[redisKey].List? then None
    else Some(s[redisKey].objs)
  }

  function Put(s: Store, cacheName: string, key: Key, v: Value, oc: Outcome): (r: Store)
    ensures oc.Fail? ==> r == s
    ensures oc.Ok? ==> r == s[BuildKey(cacheName, key) := v]
  {
    if oc.Fail? then s else s[BuildKey(cacheName, key) := v]
  }

  function Evict(s: Store, cacheName: string, key: Key, oc: Outcome): (r: Store)
    ensures oc.Fail? ==> r == s
    ensures oc.Ok? ==> r.Keys == s.Keys - {BuildKey(cacheName, key)}
    ensures forall k | k in r :: k in s && r[k] == s[k]
  {
    if oc.Fail? then s else s - {BuildKey(cacheName, key)}
  }

  function Clear(s: Store, cacheName: string, oc: Outcome): (r: Store)
    ensures oc.Fail? ==> r == s
    ensures oc.Ok? ==> r.Keys == s.Keys - Matching(s, cacheName)
    ensures forall k | k in r :: k in s && r[k] == s[k]
  {
    if oc.Fail? then s
    else
      var keys := Matching(s, cacheName);
      if keys == {} then s else s - keys
  }

  /** The layout of a physical key: prefix, cache name, separator, key text. */
  lemma KeyLayout(cacheName: string, key: Key)
    ensures var p, b := KeyPrefix + Separator, BuildKey(cacheName, key);
      && |p| == 14
      && b == p + cacheName + Separator + KeyText(key)
      && |b| == 16 + |cacheName| + |KeyText(key)|
      && b[..14] == p
      && b[14..14 + |cacheName|] == cacheName
      && b[14 + |cacheName|] == ':'
      && b[16 + |cacheName|..] == KeyText(key)
  {
  }

  /** For separator-free cache names the physical key determines the cache
      name and the key text. */
  lemma BuildKeyInjective(n1: string, k1: Key, n2: string, k2: Key)
    requires SeparatorFree(n1) && SeparatorFree(n2)
    requires BuildKey(n1, k1) == BuildKey(n2, k2)
    ensures n1 == n2 && KeyText(k1) == KeyText(k2)
  {
    KeyLayout(n1, k1);
    KeyLayout(n2, k2);
  }

  /** The entity entry and the collection entry of one cache have distinct
      physical keys. */
  lemma IdKeyIsNotAllKey(cacheName: string, id: Id)
    ensures BuildKey(cacheName, EntityId(id)) != BuildKey(cacheName, All)
  {
    KeyLayout(cacheName, EntityId(id));
    KeyLayout(cacheName, All);
    AllTextIsNoIdText(id);
  }

  /** Physical keys are built from key texts, so a string key that spells an
      id addresses that id's entry. */
  lemma TextKeyAliasesIdKey(cacheName: string)
    ensures BuildKey(cacheName, Literal("5")) == BuildKey(cacheName, EntityId(5))
  {
    assert Digits(5) == [DigitChar(5)] == "5";
  }

  /** The clear pattern of `cacheName` matches the keys built for `cacheName`
      and no key built for another separator-free cache name. */
  lemma PatternMatchesOwnKeys(cacheName: string, other: string, key: Key)
    requires SeparatorFree(cacheName) && SeparatorFree(other)
    ensures MatchesPattern(BuildKey(other, key), BuildPattern(cacheName)) <==> other == cacheName
  {
    var pat := BuildPattern(cacheName);
    var pre := pat[..|pat| - 1];
    var b := BuildKey(other, key);
    assert pre == NamespacePrefix(cacheName);
    assert |pre| == 16 + |cacheName|;
    KeyLayout(other, key);
    if pre <= b {
      var rest := b[|pre|..];
      assert b == pre + rest == BuildKey(cacheName, Literal(rest));
      BuildKeyInjective(cacheName, Literal(rest), other, key);
    }
    if other == cacheName {
      assert b == pre + KeyText(key);
    }
  }

  /** A put followed by a get of the same key returns the value written, when
      it has the requested type. */
  lemma PutThenGet(s: Store, cacheName: string, key: Key, v: Value, t: ValueType)
    ensures Get(Put(s, cacheName, key, v, Ok), cacheName, key, t, Ok)
         == if IsInstance(v, t) then Some(v) else None
  {
  }

  /** A put is invisible to every other (cache name, key text). */
  lemma PutLeavesOtherEntries(s: Store, cacheName: string, key: Key, v: Value, oc: Outcome,
                              other: string, otherKey: Key, t: ValueType, readOc: Outcome)
    requires SeparatorFree(cacheName) && SeparatorFree(other)
    requires other != cacheName || KeyText(otherKey) != KeyText(key)
    ensures Get(Put(s, cacheName, key, v, oc), other, otherKey, t, readOc) == Get(s, other, otherKey, t, readOc)
  {
    if BuildKey(cacheName, key) == BuildKey(other, otherKey) {
      BuildKeyInjective(cacheName, key, other, otherKey);
    }
  }

  /** After an evict the key misses; every other entry reads as before. */
  lemma EvictRemovesOnlyItsKey(s: Store, cacheName: string, key: Key,
                               other: string, otherKey: Key, t: ValueType, readOc: Outcome)
    requires SeparatorFree(cacheName) && SeparatorFree(other)
    ensures Get(Evict(s, cacheName, key, Ok), cacheName, key, t, readOc) == None
    ensures other != cacheName || KeyText(otherKey) != KeyText(key) ==>
      Get(Evict(s, cacheName, key, Ok), other, otherKey, t, readOc) == Get(s, other, otherKey, t, readOc)
  {
    if BuildKey(cacheName, key) == BuildKey(other, otherKey) {
      BuildKeyInjective(cacheName, key, other, otherKey);
    }
  }

  /** Evicting an absent key changes nothing; evicting twice is evicting once. */
  lemma EvictIdempotent(s: Store, cacheName: string, key: Key, oc: Outcome)
    ensures BuildKey(cacheName, key) !in s ==> Evict(s, cacheName, key, oc) == s
    ensures Evict(Evict(s, cacheName, key, Ok), cacheName, key, oc) == Evict(s, cacheName, key, Ok)
  {
  }

  /** After a clear every key of the cache misses, and every entry of another
      separator-free cache reads as before. */
  lemma ClearEmptiesOnlyItsCache(s: Store, cacheName: string, other: string, key: Key, t: ValueType, readOc: Outcome)
    requires SeparatorFree(cacheName) && SeparatorFree(other)
    ensures other == cacheName ==> Get(Clear(s, cacheName, Ok), other, key, t, readOc) == None
    ensures other != cacheName ==> Get(Clear(s, cacheName, Ok), other, key, t, readOc) == Get(s, other, key, t, readOc)
  {
    PatternMatchesOwnKeys(cacheName, other, key);
  }

  /** A clear that finds no key leaves the store as it was. */
  lemma ClearWithoutMatchesIsNoop(s: Store, cacheName: string, oc: Outcome)
    requires forall k | k in s :: !(NamespacePrefix(cacheName) <= k)
    ensures Clear(s, cacheName, oc) == s
  {
    var pat := BuildPattern(cacheName);
    assert pat[..|pat| - 1] == NamespacePrefix(cacheName);
    assert Matching(s, cacheName) == {};
  }
}

=== FILE: repository.dfy ===
/** The JPA repositories as the services use them: an authoritative store of
    entities by id, with fresh ids drawn from a sequence. Every call is
    recorded in a log, so properties can say when the store was not touched. */
module Repository {
  import opened Wrappers
  import opened Values

  /** One repository call, as it appears in the log. */
  datatype Call =
    | FindAll
    | FindById(id: Id)
    | Save(savedId: Option<Id>)
    | DeleteById(id: Id)
    | ExistsById(id: Id)

  /** `rows` holds the stored entities, `order` the order `findAll` lists them
      in, `nextId` the next value of the id sequence, and `log` every call made. */
  datatype Repo = Repo(rows: map<Id, Obj>, order: seq<Id>, nextId: Id, log: seq<Call>)

  /** The empty store; the id sequence starts at 1. */
  const Empty: Repo := Repo(map[], [], 1, [])

  /** The store is consistent: each row carries its own id, every id was drawn
      below `nextId`, and `order` lists each stored id exactly once. */
  ghost predicate Valid(r: Repo) {
    && (forall i | i in r.rows :: r.rows[i].id == Some(i) && i < r.nextId)
    && Distinct(r.order)
    && Stored(r.order, r.rows)
    && (forall i | i in r.rows :: i in r.order)
  }

  /** No id occurs twice in `ids`. */
  predicate Distinct(ids: seq<Id>) {
    ids == [] || (ids[0] !in ids[1..] && Distinct(ids[1..]))
  }

  /** Every id in `ids` has a row. */
  predicate Stored(ids: seq<Id>, rows: map<Id, Obj>) {
    ids == [] || (ids[0] in rows && Stored(ids[1..], rows))
  }

  /** The entities stored under `ids`, in that order; ids without a row are skipped. */
  function Rows(rows: map<Id, Obj>, ids: seq<Id>): seq<Obj> {
    if ids == [] then []
    else if ids[0] in rows then [rows[ids[0]]] + Rows(rows, ids[1..])
    else Rows(rows, ids[1..])
  }

  /** What `findAll` returns. */
  function Listing(r: Repo): seq<Obj> {
    Rows(r.rows, r.order)
  }

  function Remove(ids: seq<Id>, id: Id): (r: seq<Id>)
    ensures forall j :: j in r <==> j in ids && j != id
    ensures |r| <= |ids|
  {
    if ids == [] then []
    else if ids[0] == id then Remove(ids[1..], id)
    else [ids[0]] + Remove(ids[1..], id)
  }

  function FindAllOp(r: Repo): (res: (seq<Obj>, Repo))
    ensures res.0 == Listing(r)
    ensures res.1 == r.(log := r.log + [FindAll])
  {
    (Listing(r), r.(log := r.log + [FindAll]))
  }

  function FindByIdOp(r: Repo, id: Id): (res: (Option<Obj>, Repo))
    ensures res.0.Some? <==> id in r.rows
    ensures res.0.Some? ==> res.0.value == r.rows[id]
    ensures res.1 == r.(log := r.log + [FindById(id)])
  {
    (if id in r.rows then Some(r.rows[id]) else None, r.(log := r.log + [FindById(id)]))
  }

  function ExistsByIdOp(r: Repo, id: Id): (res: (bool, Repo))
    ensures res.0 <==> id in r.rows
    ensures res.1 == r.(log := r.log + [ExistsById(id)])
  {
    (id in r.rows, r.(log := r.log + [ExistsById(id)]))
  }

  /** `save`: an entity without id is inserted under the next id of the
      sequence; an entity with an id is stored under it, replacing any row. */
  function SaveOp(r: Repo, x: Obj): (res: (Obj, Repo))
    ensures res.0.id.Some? && res.0.cls == x.cls && res.0.props == x.props
    ensures x.id.Some? ==> res.0 == x
    ensures x.id.None? ==> res.0.id.value == r.nextId
    ensures var i := res.0.id.value;
      && res.1.rows == r.rows[i := res.0]
      && res.1.log == r.log + [Save(x.id)]
  {
    match x.id
    case None =>
      var saved := x.(id := Some(r.nextId));
      (saved, Repo(r.rows[r.nextId := saved], r.order + [r.nextId], r.nextId + 1, r.log + [Save(x.id)]))
    case Some(i) =>
      var order := if i in r.rows then r.order else r.order + [i];
      var next := if i < r.nextId then r.nextId else i + 1;
      (x, Repo(r.rows[i := x], order, next, r.log + [Save(x.id)]))
  }

  /** `deleteById`: removes the row; an id without a row is silently ignored. */
  function DeleteByIdOp(r: Repo, id: Id): (res: Repo)
    ensures res.rows == r.rows - {id}
    ensures res.log == r.log + [DeleteById(id)]
    ensures id !in r.rows ==> res.(log := r.log) == r
  {
    if id in r.rows then Repo(r.rows - {id}, Remove(r.order, id), r.nextId, r.log + [DeleteById(id)])
    else r.(log := r.log + [DeleteById(id)])
  }

  lemma EmptyIsValid()
    ensures Valid(Empty)
  {
  }

  lemma {:induction false} RemoveKeepsDistinct(ids: seq<Id>, id: Id)
    requires Distinct(ids)
    ensures Distinct(Remove(ids, id))
    decreases |ids|
  {
    if ids != [] {
      RemoveKeepsDistinct(ids[1..], id);
    }
  }

  lemma {:induction false} AppendKeepsDistinct(ids: seq<Id>, id: Id)
    requires Distinct(ids) && id !in ids
    ensures Distinct(ids + [id])
    decreases |ids|
  {
    if ids != [] {
      assert (ids + [id])[1..] == ids[1..] + [id];
      AppendKeepsDistinct(ids[1..], id);
    }
  }

  lemma {:induction false} UnstoredIsUnlisted(ids: seq<Id>, rows: map<Id, Obj>, k: Id)
    requires Stored(ids, rows) && k !in rows
    ensures k !in ids
    decreases |ids|
  {
    if ids != [] {
      UnstoredIsUnlisted(ids[1..], rows, k);
      assert ids == [ids[0]] + ids[1..];
    }
  }

  lemma {:induction false} StoredGrows(ids: seq<Id>, rows: map<Id, Obj>, k: Id, v: Obj)
    requires Stored(ids, rows)
    ensures Stored(ids, rows[k := v])
    decreases |ids|
  {
    if ids != [] {
      StoredGrows(ids[1..], rows, k, v);
    }
  }

  lemma {:induction false} StoredAppend(ids: seq<Id>, rows: map<Id, Obj>, k: Id)
    requires Stored(ids, rows) && k in rows
    ensures Stored(ids + [k], rows)
    decreases |ids|
  {
    if ids != [] {
      assert (ids + [k])[1..] == ids[1..] + [k];
      StoredAppend(ids[1..], rows, k);
    }
  }

  lemma {:induction false} StoredRemove(ids: seq<Id>, rows: map<Id, Obj>, id: Id)
    requires Stored(ids, rows)
    ensures Stored(Remove(ids, id), rows - {id})
    decreases |ids|
  {
    if ids != [] {
      StoredRemove(ids[1..], rows, id);
    }
  }

  /** `save` keeps the store consistent. */
  lemma SavePreservesValid(r: Repo, x: Obj)
    requires Valid(r)
    ensures Valid(SaveOp(r, x).1)
  {
    var (saved, s) := SaveOp(r, x);
    var i := saved.id.value;
    StoredGrows(r.order, r.rows, i, saved);
    if i !in r.rows {
      UnstoredIsUnlisted(r.order, r.rows, i);
      AppendKeepsDistinct(r.order, i);
      StoredAppend(r.order, s.rows, i);
    }
  }

  /** `deleteById` keeps the store consistent. */
  lemma DeletePreservesValid(r: Repo, id: Id)
    requires Valid(r)
    ensures Valid(DeleteByIdOp(r, id))
  {
    if id in r.rows {
      RemoveKeepsDistinct(r.order, id);
      StoredRemove(r.order, r.rows, id);
    }
  }

  /** Every store operation keeps the store consistent. */
  lemma OperationsPreserveValid(r: Repo, x: Obj, id: Id)
    requires Valid(r)
    ensures Valid(FindAllOp(r).1) && Valid(FindByIdOp(r, id).1) && Valid(ExistsByIdOp(r, id).1)
    ensures Valid(SaveOp(r, x).1)
    ensures Valid(DeleteByIdOp(r, id))
  {
    SavePreservesValid(r, x);
    DeletePreservesValid(r, id);
  }

  /** With a consistent store, `findAll` lists every stored entity exactly as stored. */
  lemma {:induction false} ListingIsRows(rows: map<Id, Obj>, ids: seq<Id>)
    requires Stored(ids, rows)
    ensures |Rows(rows, ids)| == |ids|
    ensures forall p | 0 <= p < |ids| :: ids[p] in rows && Rows(rows, ids)[p] == rows[ids[p]]
    decreases |ids|
  {
    if ids != [] {
      var tail := Rows(rows, ids[1..]);
      ListingIsRows(rows, ids[1..]);
      assert Rows(rows, ids) == [rows[ids[0]]] + tail;
      forall p | 0 <= p < |ids| ensures ids[p] in rows && Rows(rows, ids)[p] == rows[ids[p]] {
        if p > 0 {
          assert ids[p] == ids[1..][p - 1];
          assert Rows(rows, ids)[p] == tail[p - 1];
        }
      }
    }
  }

  lemma {:induction false} RowsAppend(rows: map<Id, Obj>, a: seq<Id>, b: seq<Id>)
    ensures Rows(rows, a + b) == Rows(rows, a) + Rows(rows, b)
    decreases |a|
  {
    if a != [] {
      assert (a + b)[1..] == a[1..] + b;
      RowsAppend(rows, a[1..], b);
    } else {
      assert a + b == b;
    }
  }

  lemma {:induction false} RowsIgnoreUnlisted(rows: map<Id, Obj>, ids: seq<Id>, k: Id, v: Obj)
    requires k !in ids
    ensures Rows(rows[k := v], ids) == Rows(rows, ids)
    decreases |ids|
  {
    if ids != [] {
      RowsIgnoreUnlisted(rows, ids[1..], k, v);
    }
  }

  /** A fresh insert appears at the end of the listing; every other row keeps its place. */
  lemma InsertAppendsToListing(r: Repo, x: Obj)
    requires Valid(r) && x.id.None?
    ensures Listing(SaveOp(r, x).1) == Listing(r) + [SaveOp(r, x).0]
  {
    var (saved, s) := SaveOp(r, x);
    UnstoredIsUnlisted(r.order, r.rows, r.nextId);
    RowsAppend(s.rows, r.order, [r.nextId]);
    RowsIgnoreUnlisted(r.rows, r.order, r.nextId, saved);
  }
}

=== FILE: scenarios.dfy ===
/** The end-to-end behaviours the cache layer is meant to show: independent
    key spaces, a clear confined to its namespace, a cold read that reaches
    the store once, and category write-through against product invalidation. */
module Scenarios {
  import opened Wrappers
  import opened Values
  import opened NamedCaches
  import opened ServiceState
  import opened Mapping
  import Repository
  import EC = EntityCache
  import CategoryManual = CategoryManualService
  import ProductManual = ProductManualService

  /** `products/all = [p1, p2]` and `products/<id> = p2`; evicting `all`
      leaves the id entry readable. A concrete instance of
      `EntityCache.AllAndIdEntriesIndependent`. */
  lemma EvictAllKeepsItemEntry(p1: Obj, p2: Obj, id: Id)
    requires p2.cls == ProductResponse
    ensures var m := map[EC.ProductCache.cacheName := map[All := List([p1, p2]), EntityId(id) := Item(p2)]];
      var evicted := EC.EvictAll(EC.ProductCache, m, Ok);
      && EC.GetAll(EC.ProductCache, evicted, Ok) == None
      && EC.GetById(EC.ProductCache, evicted, id, Ok) == Some(p2)
  {
    var c := map[All := List([p1, p2]), EntityId(id) := Item(p2)];
    assert EntityId(id) != All;
    assert (c - {All})[EntityId(id)] == Item(p2);
  }

  /** Populate `categories/all`, `categories/<id>` and `products/<id>`;
      clearing `categories` leaves `products/<id>` readable and every category
      read misses. A concrete instance of `EntityCache.CategoryClearKeepsProducts`. */
  lemma ClearCategoriesKeepsProducts(cats: seq<Obj>, c1: Obj, p1: Obj, id: Id)
    requires p1.cls == ProductResponse
    ensures var m := map[
        EC.CategoryCache.cacheName := map[All := List(cats), EntityId(id) := Item(c1)],
        EC.ProductCache.cacheName := map[EntityId(id) := Item(p1)]];
      var cleared := EC.ClearAllEntries(EC.CategoryCache, m, Ok);
      && EC.GetById(EC.ProductCache, cleared, id, Ok) == Some(p1)
      && EC.GetAll(EC.CategoryCache, cleared, Ok) == None
      && forall id: Id :: EC.GetById(EC.CategoryCache, cleared, id, Ok) == None
  {
  }

  /** A cold `getById(id)` calls the store exactly once and caches the
      answer; a second `getById(id)` makes no store call and answers the same. */
  lemma ColdThenWarmGetById(w: World, mp: Mapper, id: Id)
    requires Repository.Valid(w.repo) && KeepsId(mp) && Produces(mp, CategoryResponse)
    requires id in w.repo.rows
    requires EC.CategoryCache.cacheName in w.caches && EntityId(id) !in w.caches[EC.CategoryCache.cacheName]
    ensures var first := CategoryManual.GetById(w, mp, id, Ok, Ok);
      var second := CategoryManual.GetById(first.world, mp, id, Ok, Ok);
      && first.out == Success(mp.toResponse(w.repo.rows[id]))
      && first.world.repo.log == w.repo.log + [Repository.FindById(id)]
      && second.out == first.out
      && second.world == first.world
  {
    assert w.repo.rows[id].id == Some(id);
    assert mp.toResponse(w.repo.rows[id]).id == Some(id);
  }

  /** Category writes write through: right after `update(id)`, `getById(id)`
      answers the updated response without a store call, while `getAll`
      makes exactly one store call because `all` was evicted. */
  lemma CategoryUpdateWritesThrough(w: World, mp: Mapper, request: Request, id: Id)
    requires KeepsId(mp) && Produces(mp, CategoryResponse)
    requires request.id == Some(id) && id in w.repo.rows
    requires mp.copy(w.repo.rows[id], request).id == Some(id)
    requires EC.CategoryCache.cacheName in w.caches
    ensures var updated := CategoryManual.Update(w, mp, request, Ok, Ok);
      var read := CategoryManual.GetById(updated.world, mp, id, Ok, Ok);
      var all := CategoryManual.GetAll(updated.world, mp, Ok, Ok);
      && updated.out.Success?
      && read.out == updated.out
      && read.world == updated.world
      && all.world.repo.log == updated.world.repo.log + [Repository.FindAll]
  {
    var found := Repository.FindByIdOp(w.repo, id).1;
    var saved := Repository.SaveOp(found, mp.copy(w.repo.rows[id], request)).0;
    assert mp.toResponse(saved).id == Some(id);
    assert mp.toResponse(saved).cls == CategoryResponse;
  }

  /** Product writes only invalidate: right after `update(id)`, `getById(id)`
      goes back to the store. */
  lemma ProductUpdateInvalidates(w: World, mp: Mapper, request: Request, id: Id)
    requires KeepsId(mp)
    requires request.id == Some(id) && id in w.repo.rows
    requires mp.copy(w.repo.rows[id], request).id == Some(id)
    requires EC.ProductCache.cacheName in w.caches
    ensures var updated := ProductManual.Update(w, mp, request, Ok, Ok);
      var read := ProductManual.GetById(updated.world, mp, id, Ok, Ok);
      && updated.out.Success?
      && read.out == updated.out
      && read.world.repo.log == updated.world.repo.log + [Repository.FindById(id)]
  {
    var found := Repository.FindByIdOp(w.repo, id).1;
    var saved := Repository.SaveOp(found, mp.copy(w.repo.rows[id], request)).0;
    assert mp.toResponse(saved).id == Some(id);
  }
}

=== FILE: spring_adapter.dfy ===
/** `CacheSpringAdapter`: the cache port delegated to a named cache of the
    `CacheManager`. An unknown cache name degrades every operation to a miss or
    a no-op, and so does a failing backend call, whose exception is caught. */
module SpringAdapter {
  import opened Wrappers
  import opened Values
  import opened NamedCaches

  function Get(m: Manager, cacheName: string, key: Key, t: ValueType, oc: Outcome): (r: Option<Value>)
    ensures oc.Fail? || cacheName !in m ==> r == None
    ensures r.Some? <==> oc.Ok? && cacheName in m && key in m[cacheName] && IsInstance(m[cacheName][key], t)
    ensures r.Some? ==> r.value == m[cacheName][key]
  {
    if oc.Fail? || cacheName !in m then None
    else
      match TypedGet(m[cacheName], key, t)
      case Hit(v) => Some(v)
      case Miss => None
      case WrongType => None
  }

  function GetList(m: Manager, cacheName: string, key: Key, oc: Outcome): (r: Option<seq<Obj>>)
    ensures oc.Fail? || cacheName !in m ==> r == None
    ensures r.Some? <==> oc.Ok? && cacheName in m && key in m[cacheName] && m[cacheName][key].List?
    ensures r.Some? ==> m[cacheName][key] == List(r.value)
  {
    if oc.Fail? || cacheName !in m then None
    else
      match TypedGet(m[cacheName], key, ListType)
      case Hit(v) => Some(v.objs)
      case Miss => None
      case WrongType => None
  }

  function Put(m: Manager, cacheName: string, key: Key, v: Value, oc: Outcome): (r: Manager)
    ensures oc.Fail? || cacheName !in m ==> r == m
    ensures oc.Ok? && cacheName in m ==> r == m[cacheName := m[cacheName][key := v]]
  {
    if oc.Fail? || cacheName !in m then m
    else m[cacheName := m[cacheName][key := v]]
  }

  function Evict(m: Manager, cacheName: string, key: Key, oc: Outcome): (r: Manager)
    ensures oc.Fail? || cacheName !in m ==> r == m
    ensures oc.Ok? && cacheName in m ==> r == m[cacheName := m[cacheName] - {key}]
  {
    if oc.Fail? || cacheName !in m then m
    else m[cacheName := m[cacheName] - {key}]
  }

  function Clear(m: Manager, cacheName: string, oc: Outcome): (r: Manager)
    ensures oc.Fail? || cacheName !in m ==> r == m
    ensures oc.Ok? && cacheName in m ==> r == m[cacheName := map[]]
  {
    if oc.Fail? || cacheName !in m then m
    else m[cacheName := map[]]
  }

  /** A read of the list under a key is a typed read asking for a list. */
  lemma GetListIsListRead(m: Manager, cacheName: string, key: Key, oc: Outcome)
    ensures GetList(m, cacheName, key, oc).Some? <==> Get(m, cacheName, key, ListType, oc).Some?
    ensures GetList(m, cacheName, key, oc).Some? ==>
      Get(m, cacheName, key, ListType, oc).value == List(GetList(m, cacheName, key, oc).value)
  {
  }

  /** A put followed by a get of the same key returns the value written when
      it has the requested type, provided the named cache exists. */
  lemma PutThenGet(m: Manager, cacheName: string, key: Key, v: Value, t: ValueType)
    requires cacheName in m
    ensures Get(Put(m, cacheName, key, v, Ok), cacheName, key, t, Ok) == if IsInstance(v, t) then Some(v) else None
  {
  }

  /** Put and evict change only their own key of their own named cache. */
  lemma WritesTouchOneEntry(m: Manager, cacheName: string, key: Key, v: Value, oc: Outcome,
                            other: string, otherKey: Key, t: ValueType, readOc: Outcome)
    requires other != cacheName || otherKey != key
    ensures Get(Put(m, cacheName, key, v, oc), other, otherKey, t, readOc) == Get(m, other, otherKey, t, readOc)
    ensures Get(Evict(m, cacheName, key, oc), other, otherKey, t, readOc) == Get(m, other, otherKey, t, readOc)
  {
  }

  /** After an evict the key misses; an absent key makes evict a no-op, and
      evicting twice is evicting once. */
  lemma EvictIdempotent(m: Manager, cacheName: string, key: Key, t: ValueType, oc: Outcome)
    ensures Get(Evict(m, cacheName, key, Ok), cacheName, key, t, oc) == None
    ensures cacheName in m && key !in m[cacheName] ==> Evict(m, cacheName, key, oc) == m
    ensures Evict(Evict(m, cacheName, key, Ok), cacheName, key, oc) == Evict(m, cacheName, key, Ok)
  {
    if cacheName in m {
      var c := m[cacheName];
      assert c - {key} - {key} == c - {key};
      if key !in c {
        assert c - {key} == c;
      }
    }
  }

  /** A clear empties its named cache and leaves every other one alone. */
  lemma ClearEmptiesOnlyItsCache(m: Manager, cacheName: string, other: string, key: Key, t: ValueType, readOc: Outcome)
    ensures Get(Clear(m, cacheName, Ok), cacheName, key, t, readOc) == None
    ensures other != cacheName ==> Get(Clear(m, cacheName, Ok), other, key, t, readOc) == Get(m, other, key, t, readOc)
  {
  }
}

=== FILE: state.dfy ===
/** What a service call sees and leaves behind: the store and the caches,
    plus the call's result or the exception it ends with. */
module ServiceState {
  import opened Wrappers
  import Repository
  import NamedCaches

  datatype World = World(repo: Repository.Repo, caches: NamedCaches.Manager)

  /** The exceptions a service call can end with. */
  datatype Error =
    | NotFound(message: string)   // the `RuntimeException` of a failed lookup
    | MissingId                   // `findById(null)` rejects a null id
    | NullCacheKey                // a cache operation's key evaluated to null
    | TypeMismatch                // a cached value of the wrong class reached the caller
    | CacheFailure                // a backend exception that was not caught

  /** A service call's outcome: its result or exception, and the new state. */
  datatype Step<T> = Step(out: Result<T, Error>, world: World)
}

=== FILE: values.dfy ===
/** What the cache layer stores and how it names it: runtime classes, objects,
    cached values, logical keys and their text form. */
module Values {
  import opened Wrappers

  /** Entity identifiers are Java `Long`s; their 64-bit width is not modelled. */
  type Id = int

  /** The runtime classes of the objects that reach a cache. */
  datatype Class =
    | Category | CategoryResponse
    | Product | ProductResponse
    | Person | PersonResponse

  /** An object: its runtime class, its nullable id, and its other properties,
      which the cache layer never inspects. */
  datatype Obj = Obj(cls: Class, id: Option<Id>, props: map<string, string>)

  /** A cached value: one object, or a list of objects. */
  datatype Value = Item(obj: Obj) | List(objs: seq<Obj>)

  /** The `Class<T>` argument of a typed cache read. */
  datatype ValueType = ItemOf(cls: Class) | ListType

  /** `valueType.isInstance(value)`. */
  predicate IsInstance(v: Value, t: ValueType) {
    match t
    case ItemOf(c) => v.Item? && v.obj.cls == c
    case ListType => v.List?
  }

  /** A logical cache key: a string (the `"all"` sentinel) or an entity id. */
  datatype Key = Literal(text: string) | EntityId(id: Id)

  /** The key of the entry that holds a whole collection. */
  const AllText: string := "all"
  const All: Key := Literal(AllText)

  /** The outcome of one call into a cache backend: it returns, or it throws. */
  datatype Outcome = Ok | Fail

  function DigitChar(d: nat): (c: char)
    requires d < 10
    ensures c as int == '0' as int + d
  {
    ('0' as int + d) as char
  }

  predicate IsDigit(c: char) {
    '0' <= c <= '9'
  }

  /** The decimal digits of `n`, most significant first, without leading zeros. */
  function Digits(n: nat): (s: string)
    ensures 1 <= |s|
    ensures |s| == 1 <==> n < 10
    ensures forall i :: 0 <= i < |s| ==> IsDigit(s[i])
    decreases n
  {
    if n < 10 then [DigitChar(n)] else Digits(n / 10) + [DigitChar(n % 10)]
  }

  /** `Long.toString(n)`: what string concatenation and `%s` produce for an id. */
  function IdText(n: Id): (s: string)
    ensures 1 <= |s|
    ensures n < 0 <==> s[0] == '-'
    ensures n >= 0 ==> IsDigit(s[0])
  {
    if n < 0 then "-" + Digits(-n) else Digits(n)
  }

  /** `String.valueOf(key)`: the text of a logical key. */
  function KeyText(k: Key): string {
    match k
    case Literal(s) => s
    case EntityId(n) => IdText(n)
  }

  lemma {:induction false} DigitsInjective(a: nat, b: nat)
    requires Digits(a) == Digits(b)
    ensures a == b
    decreases a
  {
    if a < 10 {
      assert b < 10;
      assert DigitChar(a) == Digits(a)[0] == Digits(b)[0] == DigitChar(b);
    } else {
      assert b >= 10;
      var da, db := Digits(a / 10), Digits(b / 10);
      assert Digits(a) == da + [DigitChar(a % 10)];
      assert Digits(b) == db + [DigitChar(b % 10)];
      assert |da| == |db|;
      assert da == Digits(a)[..|da|] == Digits(b)[..|db|] == db;
      assert DigitChar(a % 10) == Digits(a)[|da|] == Digits(b)[|db|] == DigitChar(b % 10);
      DigitsInjective(a / 10, b / 10);
    }
  }

  /** Distinct ids have distinct texts. */
  lemma IdTextInjective(a: Id, b: Id)
    requires IdText(a) == IdText(b)
    ensures a == b
  {
    if a < 0 {
      assert b < 0;
      assert Digits(-a) == IdText(a)[1..] == IdText(b)[1..] == Digits(-b);
      DigitsInjective(-a, -b);
    } else {
      assert b >= 0;
      DigitsInjective(a, b);
    }
  }

  /** No id renders as the `"all"` sentinel, so an entity's entry and the
      collection entry of one namespace never share a text key. */
  lemma AllTextIsNoIdText(n: Id)
    ensures KeyText(All) != KeyText(EntityId(n))
  {
    var t := IdText(n);
    assert AllText[0] == 'a';
    assert t[0] == '-' || IsDigit(t[0]);
  }

  /** Key texts coincide exactly when the keys do, as long as both are ids or
      one is the `"all"` sentinel. */
  lemma KeyTextSeparatesEntryKinds(k1: Key, k2: Key)
    requires k1 == All || k1.EntityId?
    requires k2 == All || k2.EntityId?
    ensures KeyText(k1) == KeyText(k2) <==> k1 == k2
  {
    if KeyText(k1) == KeyText(k2) {
      if k1.EntityId? && k2.EntityId? {
        IdTextInjective(k1.id, k2.id);
      } else if k1.EntityId? {
        AllTextIsNoIdText(k1.id);
      } else if k2.EntityId? {
        AllTextIsNoIdText(k2.id);
      }
    }
  }
}

=== FILE: wrappers.dfy ===
/** The failure-compatible shapes the model uses in place of Java's `null`,
    `Optional` and thrown exceptions. */
module Wrappers {

  /** `Optional<T>`, or a reference that may be null. */
  datatype Option<+T> = None | Some(value: T)

  /** A call that either returns a value or throws an error. */
  datatype Result<+T, +E> = Success(value: T) | Failure(error: E)
}
